=== FILE: README.md ===
# Flight Delay Explorer — a Dafny model of its core

Flight Delay Explorer fetches one day of flight records from the AviationStack API, or reads them from
a JSON file. It turns each raw record into a `FlightRecord`, classifies the flight by delay severity,
and prints, summarises or saves the result. This project models the logic in the middle of that
pipeline as pure Dafny functions and proves properties about it.

- **Models** (`models.dfy`). The six `DelayCategory` values with their display strings, the delay
  bands (at most 15 minutes, at most 60, at most 180, longer), `FlightRecord` and `QueryParams`.
- **RawJson** (`raw_json.dfy`). Decoded JSON reduced to the keys the parsers read.
  - Inside a nested object ("flight", "departure", "arrival"), a missing `icao` or `delay` and a null
    one both read as `None`.
  - At the entry level, a missing key is `None`, and so is a null date.
  - An entry that a lookup would raise on is `Malformed`: one that is not an object, or one whose
    status or nested object is null. Both parsers skip such an entry.
- **Text** (`text.dfy`). The Python string operations the parsers rely on:
  - `str.strip()` over Python's 29 whitespace code points;
  - ASCII `lower()`;
  - `split` with a one-character separator, keeping empty pieces;
  - `zfill(2)`, sign-aware;
  - decimal rendering.
- **Batch** (`batch.dfy`). The loop both parsers run: parse each entry, keep what parses, skip what
  raises.
- **DataParser** (`data_parser.dfy`). The file path:
  - the classifier;
  - `_normalize_date_format`;
  - the strict normaliser `_parse_flight_data`, which rejects a record missing its date or any of the
    three ICAO codes, and zeroes the delay of a cancelled or diverted flight;
  - `_parse_json_data`;
  - the outcomes of `parse_file`.
- **ApiClient** (`api_client.dfy`). The network path:
  - the client's own classifier, which takes an optional delay;
  - the lenient normaliser `_parse_flight_record`, which never rejects a well-formed object and keeps
    the raw delay;
  - `_parse_response`;
  - the request `get_flights` sends;
  - its retry loop.

  The network is a finite sequence of attempt outcomes, one per permitted attempt. Sleeping is
  recorded in the run's list of back-off times rather than performed. A call's `Run` is its result,
  the number of attempts made and the sleeps in order.
- **Cli** (`cli.dfy`). From the command line:
  - `_generate_summary_stats`, with the average kept as an exact fraction;
  - the mapping `--save-to-file` writes;
  - the table's delay cell.
- **Consistency** (`consistency.dfy`). How the two classifiers and the two normalisers relate.

Four behaviours of the code are worth stating plainly:

- Only the file path sets the delay to 0 for a cancelled or diverted flight. The network path keeps
  the reported delay, so the two paths store different records for such a flight
  (`Consistency.DelayResetDiverges`).
- A 2xx response whose body does not decode as JSON falls into the client's generic exception
  handler. It is retried like any other failure (`ApiClient.UndecodableBodyRetried`).
- The client's comment after the retry loop says the end-of-loop error should never be reached. With
  `max_retries` at 0 or below the loop body never runs, and that error is what the caller gets
  (`ApiClient.NoAttemptsEndsLoop`).
- A `data` value of null reads as "no records" on the file path. On the network path, counting the
  records raises inside the attempt, so the attempt is retried.

Status comparison uses ASCII lower-casing. For the two words compared against, "cancelled" and
"diverted", this gives the same answer as Python's full Unicode `lower()`. Two non-ASCII characters lower-case
to something containing an ASCII letter. The Kelvin sign becomes "k", which neither word contains.
U+0130 (capital I with dot above) becomes "i" followed by the combining dot U+0307; the extra
character makes the result differ from both words in Python, and the model leaves U+0130 unchanged,
so the comparison fails there as well.

## Model

| member | source | states |
|---|---|---|
| Models.CategoryOf | src/flight_delay_explorer/models.py:7-15 | looking a category up by display string finds the category carrying exactly that string, and finds nothing when no category carries it |
| Models.CategoriesAreSix | src/flight_delay_explorer/models.py:7-15 | there are six categories, every category is among them, and their display strings are pairwise distinct |
| Models.ValueRoundTrip | src/flight_delay_explorer/models.py:7-15 | a category's display string looks up to that same category |
| Models.ValueInjective | src/flight_delay_explorer/models.py:7-15 | two categories have the same display string exactly when they are equal |
| Models.BandsPartition | src/flight_delay_explorer/parsers/data_parser.py:212-220 | every delay lies in some delay band, and in at most one |
| Models.FlightRecordEquality | src/flight_delay_explorer/models.py:18-27 | records are equal exactly when all six fields are equal, as for a data class |
| Models.QueryParamsEquality | src/flight_delay_explorer/models.py:30-34 | queries are equal exactly when their dates are equal |
| Text.IsSpaceRanges | src/flight_delay_explorer/parsers/data_parser.py:169 | the whitespace that strip removes is exactly the code-point ranges Python documents for `isspace` |
| Text.StripShape | src/flight_delay_explorer/parsers/data_parser.py:169 | a stripped string has no whitespace at either end, and stripping a string with none changes nothing |
| Text.StripIsSlice | src/flight_delay_explorer/parsers/data_parser.py:169 | the stripped string is a contiguous slice of the input, and everything cut from either side is whitespace |
| Text.LowerChar | src/flight_delay_explorer/parsers/data_parser.py:143 | an ASCII capital becomes the matching small letter; every other character is unchanged |
| Text.LowerPointwise | src/flight_delay_explorer/parsers/data_parser.py:143 | lower-casing maps each character on its own, leaves no upper-case ASCII letter, and is idempotent |
| Text.LowerIs | src/flight_delay_explorer/parsers/data_parser.py:143 | a string lower-cases to t exactly when t has the same length and each of its characters is the input's character lower-cased |
| Text.LowerCancelledCapitals | src/flight_delay_explorer/parsers/data_parser.py:143 | "CANCELLED" lower-cases to "cancelled" |
| Text.LowerCancelledCapitalised | src/flight_delay_explorer/parsers/data_parser.py:143 | "Cancelled" lower-cases to "cancelled" |
| Text.LowerDivertedCapitals | src/flight_delay_explorer/parsers/data_parser.py:143 | "DIVERTED" lower-cases to "diverted" |
| Text.LowerDivertedCapitalised | src/flight_delay_explorer/parsers/data_parser.py:143 | "Diverted" lower-cases to "diverted" |
| Text.SplitKeepsCharacters | src/flight_delay_explorer/parsers/data_parser.py:177 | every character of every piece comes from the split string |
| Text.JoinSplit | src/flight_delay_explorer/parsers/data_parser.py:177 | joining the pieces of a split with the separator gives back the original string |
| Text.SplitJoin | src/flight_delay_explorer/parsers/data_parser.py:177 | splitting a join of separator-free pieces gives back the pieces |
| Text.SplitThree | src/flight_delay_explorer/parsers/data_parser.py:177-178 | three separator-free pieces joined by two separators split into exactly those three pieces |
| Text.ZFill2Shape | src/flight_delay_explorer/parsers/data_parser.py:180 | zfill(2) keeps a leading sign first, pads with zeros after it up to width 2, and adds no other character |
| Text.DecimalRoundTrip | src/flight_delay_explorer/cli.py:179 | reading a rendered natural number back gives the same number |
| Batch.KeepParsedSound | src/flight_delay_explorer/parsers/data_parser.py:85-94 | every value kept by the loop is what some entry parsed to |
| Batch.KeepParsedAppend | src/flight_delay_explorer/parsers/data_parser.py:85-94 | running the loop over two lists joined gives the two results joined |
| Batch.KeepParsedOne | src/flight_delay_explorer/parsers/data_parser.py:87-94 | a one-entry list gives its value if it parses and nothing if it raises |
| Batch.KeepParsedSkipsFailure | src/flight_delay_explorer/parsers/data_parser.py:92-94 | an entry that raises is skipped, and the entries around it are kept exactly as without it |
| Batch.KeepParsedAllSucceed | src/flight_delay_explorer/api/client.py:111-114 | when every entry parses, the i-th result is the i-th entry's value, and nothing is dropped |
| Batch.KeepParsedNoneSucceed | src/flight_delay_explorer/api/client.py:111-117 | when no entry parses the result is empty |
| Batch.KeepParsedLengthMonotone | src/flight_delay_explorer/api/client.py:111-117 | a parser that accepts at least what another accepts keeps at least as many entries |
| DataParser.DetermineDelayCategory | src/flight_delay_explorer/parsers/data_parser.py:196-220 | cancelled and diverted exactly for those two statuses; any other category's band contains the delay |
| DataParser.ClassifyMonotone | src/flight_delay_explorer/parsers/data_parser.py:212-220 | for an ordinary status, a longer delay never gives a milder category |
| DataParser.ShortDelayIsOnTime | src/flight_delay_explorer/parsers/data_parser.py:213-214 | every delay up to 15 minutes, negative ones included, is on time for an ordinary status |
| DataParser.ClassifyBoundaries | src/flight_delay_explorer/parsers/data_parser.py:206-220 | 15/16, 60/61 and 180/181 fall on either side of the band edges, and the special statuses ignore the delay |
| DataParser.NormalizeDateFormat | src/flight_delay_explorer/parsers/data_parser.py:159-194 | an ISO-shaped date is returned stripped and unchanged, as is a date with neither separator |
| DataParser.DateUnmatchedLayout | src/flight_delay_explorer/parsers/data_parser.py:175-194 | a date that is not ISO-shaped and matches none of the three layouts, separators included, is returned stripped and otherwise unchanged |
| DataParser.DateYearFirstWithSlashes | src/flight_delay_explorer/parsers/data_parser.py:175-180 | "Y/M/D" with a four-character year becomes Y, the zero-padded month and the zero-padded day, joined by dashes |
| DataParser.DateYearLastWithSlashes | src/flight_delay_explorer/parsers/data_parser.py:175-182 | "M/D/Y" with a four-character year last and a first piece not four long becomes year, month, day |
| DataParser.DateYearLastWithDashes | src/flight_delay_explorer/parsers/data_parser.py:184-190 | "M-D-Y" with a four-character year is read month first and becomes year, month, day |
| DataParser.DateExampleYearFirst | src/flight_delay_explorer/parsers/data_parser.py:175-180 | "2024/01/02" normalises to "2024-01-02" |
| DataParser.DateExampleMonthFirst | src/flight_delay_explorer/parsers/data_parser.py:184-190 | "01-03-2024" normalises to "2024-01-03" |
| DataParser.DateExamplePadded | src/flight_delay_explorer/parsers/data_parser.py:179-180 | "2024/1/5" normalises to "2024-01-05" |
| DataParser.ParseFlightData | src/flight_delay_explorer/parsers/data_parser.py:99-157 | a malformed entry fails as malformed; a well-formed entry fails only by naming a required field that is empty while every field checked before it is present; a success carries the normalised date, the three codes, the category of the lower-cased status, and a delay zeroed exactly for the special categories |
| DataParser.StrictRejectsIncomplete | src/flight_delay_explorer/parsers/data_parser.py:111-135 | a well-formed entry is accepted exactly when its date and all three ICAO codes are non-empty |
| DataParser.StatusCaseIgnored | src/flight_delay_explorer/parsers/data_parser.py:143 | changing the status's letter case does not change the record |
| DataParser.SpecialStatusAnyCase | src/flight_delay_explorer/parsers/data_parser.py:143-148 | an accepted entry with status "CANCELLED" or "Cancelled" is a cancelled flight, and one with "DIVERTED" or "Diverted" a diverted flight, each with delay 0 |
| DataParser.StrictDelayRule | src/flight_delay_explorer/parsers/data_parser.py:137-148 | a cancelled or diverted status in any case gives that category with delay 0; otherwise the delay is the raw one with null or missing read as 0 |
| DataParser.StrictExampleMissingDeparture | src/flight_delay_explorer/parsers/data_parser.py:126-129 | an entry with no departure object is rejected for its departure code |
| DataParser.StrictExampleMissingDate | src/flight_delay_explorer/parsers/data_parser.py:112-114 | an entry with no date is rejected for its date before anything else |
| DataParser.ParseJsonData | src/flight_delay_explorer/parsers/data_parser.py:79-83 | a missing, null or empty data list gives no records, and there are never more records than entries |
| DataParser.ParseJsonDataOne | src/flight_delay_explorer/parsers/data_parser.py:86-94 | a one-entry list gives that entry's record when it normalises, and nothing when it does not |
| DataParser.ParseJsonDataKeepsOrder | src/flight_delay_explorer/parsers/data_parser.py:85-97 | when every entry normalises, the i-th record is the i-th entry normalised and none is dropped |
| DataParser.ParseJsonDataSound | src/flight_delay_explorer/parsers/data_parser.py:85-94 | every record is the normalisation of some entry of the list |
| DataParser.ParseJsonDataSkipsBadEntry | src/flight_delay_explorer/parsers/data_parser.py:92-94 | one entry that fails never aborts the file; the entries around it are kept |
| DataParser.ParseJsonDataAppend | src/flight_delay_explorer/parsers/data_parser.py:85-97 | parsing two lists joined gives the two record lists joined |
| DataParser.ParseFile | src/flight_delay_explorer/parsers/data_parser.py:25-67 | a missing file, an unreadable file, invalid JSON and a non-object top level each end in their own error; an object gives exactly the records the data loop produces from its "data" value |
| ApiClient.DetermineDelayCategory | src/flight_delay_explorer/api/client.py:151-177 | cancelled and diverted exactly for those two statuses; any other category's band contains the delay, with null read as 0 |
| ApiClient.NullDelayReadsAsZero | src/flight_delay_explorer/api/client.py:168-169 | a null delay classifies like 0, so as on time for an ordinary status |
| ApiClient.ParseFlightRecord | src/flight_delay_explorer/api/client.py:122-149 | every well-formed entry succeeds: missing codes and date read as "", the date is copied as is, and the raw delay is kept even for the special categories |
| ApiClient.LenientAcceptsEmptyEntry | src/flight_delay_explorer/api/client.py:142-149 | an entry with no keys becomes an on-time record with empty fields |
| ApiClient.LenientKeepsCancelledDelay | src/flight_delay_explorer/api/client.py:137-140 | a cancelled flight keeps its reported delay on the network path |
| ApiClient.LenientKeepsEveryEntry | src/flight_delay_explorer/api/client.py:108-120 | the lenient loop keeps one record per well-formed entry |
| ApiClient.ParseResponse | src/flight_delay_explorer/api/client.py:99-120 | a null data list fails; a missing one gives no records; a list gives one record per well-formed entry |
| ApiClient.ParseResponseOne | src/flight_delay_explorer/api/client.py:111-117 | a one-entry list gives that entry's record when it is well formed, and nothing when it is not |
| ApiClient.ParseResponseAppend | src/flight_delay_explorer/api/client.py:108-120 | parsing two lists joined gives the two record lists joined |
| ApiClient.ParseResponseSound | src/flight_delay_explorer/api/client.py:111-117 | every record is the normalisation of some entry of the list |
| ApiClient.ParseResponseKeepsOrder | src/flight_delay_explorer/api/client.py:108-120 | when every entry is well formed, the i-th record is the i-th entry normalised |
| ApiClient.BuildRequest | src/flight_delay_explorer/api/client.py:41-47 | the URL is the base URL plus "/flights", with exactly three parameters: the access key, the date and min_delay_arr = 1 |
| ApiClient.RequestParamsExact | src/flight_delay_explorer/api/client.py:41-47 | no other parameter is sent, and two queries give the same request exactly when they are equal |
| ApiClient.Exchange | src/flight_delay_explorer/api/client.py:58-94 | an attempt gets records exactly for a 2xx response whose body decodes to an object with non-null data; a non-2xx raises a status error with its code; a connection failure raises a connection error; any other sending failure, a 2xx body that is not JSON, one that is not an object and one whose data is null each raise the generic error with its own cause, never a status or connection error |
| ApiClient.AttemptStep | src/flight_delay_explorer/api/client.py:58-94 | an attempt returns exactly when the exchange succeeds; it raises exactly when it fails on the final attempt; otherwise it backs off for 2^attempt seconds |
| ApiClient.RateLimitLikeStatusError | src/flight_delay_explorer/api/client.py:60-69 | a 429 is handled exactly as a status error carrying 429 would be |
| ApiClient.UndecodableBodyRetried | src/flight_delay_explorer/api/client.py:90-94 | a 2xx response with an undecodable body is retried, not surfaced |
| ApiClient.RetryFrom | src/flight_delay_explorer/api/client.py:53-97 | the loop makes between 1 and max_retries attempts and sleeps once fewer than it attempts, with 2^i seconds after attempt i; every attempt before the last failed; the result is the last attempt's; a failure means every attempt was used; the end-of-loop error arises exactly when no attempt is allowed |
| ApiClient.GetFlights | src/flight_delay_explorer/api/client.py:41-97 | the request is built from the settings and the query; with max_retries positive, between 1 and max_retries attempts are made, every attempt but the last failed, the result is the last attempt's, a failure uses all max_retries attempts, and 2^i seconds are slept after failed attempt i; with max_retries at most 0 no attempt is made and the end-of-loop error is raised |
| ApiClient.RetryFirstSuccess | src/flight_delay_explorer/api/client.py:53-94 | when attempts 0 to k-1 fail and attempt k succeeds, the call returns attempt k's records after k + 1 attempts, sleeping 1, 2, 4 ... seconds |
| ApiClient.RetryAllFail | src/flight_delay_explorer/api/client.py:78-94 | when every attempt fails, all are made and the final attempt's error is raised |
| ApiClient.Final429Surfaces | src/flight_delay_explorer/api/client.py:60-81 | a 429 on the final attempt surfaces as a status error carrying 429 |
| ApiClient.NoAttemptsEndsLoop | src/flight_delay_explorer/api/client.py:96-97 | with max_retries at 0 or below, no attempt is made and the end-of-loop error is raised |
| ApiClient.RetryIgnoresLaterOutcomes | src/flight_delay_explorer/api/client.py:53-58 | outcomes after the last permitted attempt never matter |
| ApiClient.DefaultRetryScenarios | src/flight_delay_explorer/config.py:60-62 | with the default settings' three attempts: two connection failures then success; a 429 then success; three connection failures; and 500, 503, then a final 429 |
| Cli.GenerateSummaryStats | src/flight_delay_explorer/cli.py:203-233 | on time, delayed, cancelled and diverted add up to the total, and the average runs over every flight that is not cancelled |
| Cli.CountPartition | src/flight_delay_explorer/cli.py:205-217 | every record is counted in exactly one of on time, delayed, cancelled and diverted |
| Cli.CountAppend | src/flight_delay_explorer/cli.py:206-217 | the counts of two lists joined add up |
| Cli.DelaySumAppend | src/flight_delay_explorer/cli.py:220-222 | the delay sums of two lists joined add up |
| Cli.SummaryEmpty | src/flight_delay_explorer/cli.py:203-233 | no records give zero counts and a zero delay sum |
| Cli.SummaryOne | src/flight_delay_explorer/cli.py:205-222 | one record counts as on time, delayed or cancelled according to its category only, and its delay enters the average unless it is cancelled |
| Cli.SummaryAppend | src/flight_delay_explorer/cli.py:203-233 | the summary of two lists joined is the field-wise sum of their summaries |
| Cli.AverageDelay | src/flight_delay_explorer/cli.py:221-225 | the average is sum / count as an exact fraction, and 0 when every flight is cancelled |
| Cli.DelaySumBounds | src/flight_delay_explorer/cli.py:220-222 | when each non-cancelled delay lies in [lo, hi], the sum lies between lo and hi times their number |
| Cli.AverageWithinBounds | src/flight_delay_explorer/cli.py:219-225 | when each non-cancelled delay lies in [lo, hi], so does the average |
| Cli.SaveData | src/flight_delay_explorer/cli.py:131-145 | the saved output carries the date, the record count and one simplified entry per record, in order |
| Cli.LoadFlight | src/flight_delay_explorer/cli.py:135-142 | a reader defined only in this model as the inverse of the saved-entry mapping: an entry that reads back saves to the same entry |
| Cli.LoadSaved | src/flight_delay_explorer/cli.py:131-145 | a reader defined only in this model as the inverse of the saved file: a file that reads back has as many records as its count and saves to the same file |
| Cli.SaveLoadRoundTrip | src/flight_delay_explorer/cli.py:131-145 | saving loses nothing: every record, its category included, reads back |
| Cli.DelayCell | src/flight_delay_explorer/cli.py:179 | the cell shows "N/A" exactly when the delay is not positive |
| Cli.DelayCellRoundTrip | src/flight_delay_explorer/cli.py:179 | through a cell reader defined only in this model, the cell reads back as the delay when it is positive, and as 0 otherwise |
| Consistency.ClassifiersAgree | src/flight_delay_explorer/api/client.py:151-177 | the two classifiers agree once a null delay is read as 0 |
| Consistency.StrictRefinesLenient | src/flight_delay_explorer/parsers/data_parser.py:99-157 | whatever the file path accepts, the network path accepts with the same codes and category; the file date is the network date normalised, and the delays differ only by the reset |
| Consistency.StrictAcceptsCompleteLenient | src/flight_delay_explorer/parsers/data_parser.py:111-135 | the file path accepts a well-formed entry exactly when the network record's date and codes are all non-empty |
| Consistency.DelayResetDiverges | src/flight_delay_explorer/parsers/data_parser.py:146-148 | a late cancelled or diverted flight is stored with 0 from a file and with its delay from the network, so the records differ |
| Consistency.StrictBatchNoLarger | src/flight_delay_explorer/api/client.py:108-120 | a list never yields more records from a file than from the network |

## Left out

- Logging, the Typer and Rich command-line interface, console output and `time.sleep`: they have no
  effect on the values computed. Sleeps are recorded, not performed.
- HTTP, the file system and JSON decoding are inputs, not modelled operations. An attempt's outcome
  is given as a status code and a decoded body, an undecodable body, a connection failure or another
  failure. A file is given as missing, unreadable, invalid JSON or a decoded document.
- The request timeout is carried as a setting and used for nothing else. The access key is sent as a
  query parameter (`ApiClient.BuildRequest`). Loading settings from the environment (config.py) is not part of this model. Only the defaults are
  recorded.
- Null string fields: a code or date whose value is null reads as missing. The network path in
  Python would store `None` in the record instead of "".
- A `data` value that is neither a list nor null nor missing is not modelled. Examples are an object
  or a string, which Python would iterate over.
- Fields of an unexpected JSON type (a string delay, a number as status) are folded into the
  malformed entry, or left out.
- Cli.AverageDelay: keeps the average as an exact fraction (sum, count) rather than a float, because
  Dafny has no floating point.
- Text.Lower: lower-cases ASCII letters only. This decides the comparison with "cancelled" and
  "diverted" exactly as Python does, but other characters of a status are not lower-cased as Python
  would.
- DataParser.NormalizeDateFormat: its own contract states the ISO-shaped and separator-free
  pass-throughs. The fall-through for every other unmatched date is stated by
  `DataParser.DateUnmatchedLayout`. The rewrite of each separator layout is stated by the three
  layout lemmas, only for pieces that contain no separator and leave no whitespace at the ends.
- Calendar validation: nothing checks that a normalised date is a real date. The source does not
  check either.
- The summary is printed only for more than one record. That display condition is not modelled.

=== FILE: api_client.dfy ===
/** The network client: its own copy of the classifier, the lenient normaliser, the loop over the
    response's "data" list, the request it sends and the retry loop around it. The network itself is
    a finite sequence of attempt outcomes, and sleeping is recorded instead of performed. */
module ApiClient {
  import opened Wrappers
  import opened Text
  import opened Models
  import opened RawJson
  import Batch

  /** The client's classifier. It differs from the file parser's only in taking an optional delay:
      None (a null delay) is read as 0 once the special statuses are out of the way. */
  function DetermineDelayCategory(status: string, delayMinutes: Option<int>): (c: DelayCategory)
    ensures c == Cancelled <==> status == "cancelled"
    ensures c == Diverted <==> status == "diverted"
    ensures !c.IsSpecial() ==> InBand(c, delayMinutes.GetOr(0))
  {
    if status == "cancelled" then Cancelled
    else if status == "diverted" then Diverted
    else
      var minutes := if delayMinutes.None? then 0 else delayMinutes.value;
      if minutes <= 15 then OnTime
      else if minutes <= 60 then MinorDelay
      else if minutes <= 180 then MajorDelay
      else SevereDelay
  }

  /** A missing or null delay classifies exactly like a delay of 0. */
  lemma NullDelayReadsAsZero(status: string)
    ensures DetermineDelayCategory(status, None) == DetermineDelayCategory(status, Some(0))
    ensures status != "cancelled" && status != "diverted" ==> DetermineDelayCategory(status, None) == OnTime
  {
  }

  /** The lenient (network path) normaliser. Only an entry the lookups cannot be made on fails: a
      missing identifier or date becomes "", the date is copied without normalisation, and the delay
      (missing or null read as 0) is kept even for a cancelled or diverted flight. The classifier is
      given the raw optional delay; a missing key reaches it as 0, which it treats like null. */
  function ParseFlightRecord(e: RawEntry): (r: Result<FlightRecord, ParseError>)
    ensures r.Success? <==> e.Entry?
    ensures r.Failure? ==> r.error == MalformedEntry
    ensures r.Success? ==>
      && r.value.flightDate == e.flightDate.GetOr("")
      && r.value.flightIcao == IcaoOf(e.flight)
      && r.value.originIcao == IcaoOf(e.departure)
      && r.value.destinationIcao == IcaoOf(e.arrival)
      && r.value.arrivalDelay == DelayOf(e.arrival).GetOr(0)
      && r.value.flightStatus == DetermineDelayCategory(Lower(StatusOf(e)), DelayOf(e.arrival))
  {
    match e
    case Malformed => Failure(MalformedEntry)
    case Entry(date, status, flight, departure, arrival) =>
      var category := DetermineDelayCategory(Lower(status.GetOr("")), DelayOf(arrival));
      var arrivalDelay := match DelayOf(arrival) case Some(d) => d case None => 0;
      Success(FlightRecord(arrivalDelay, IcaoOf(arrival), date.GetOr(""), IcaoOf(flight), category, IcaoOf(departure)))
  }

  /** An entry with no keys at all still becomes a record: empty identifiers, an on-time flight. */
  lemma LenientAcceptsEmptyEntry()
    ensures ParseFlightRecord(Entry(None, None, None, None, None)) == Success(FlightRecord(0, "", "", "", OnTime, ""))
  {
  }

  /** A cancelled flight keeps its reported delay on this path. */
  lemma LenientKeepsCancelledDelay(e: RawEntry, d: int)
    requires e.Entry? && Lower(StatusOf(e)) == "cancelled" && DelayOf(e.arrival) == Some(d)
    ensures ParseFlightRecord(e).Success?
    ensures ParseFlightRecord(e).value.flightStatus == Cancelled
    ensures ParseFlightRecord(e).value.arrivalDelay == d
  {
  }

  /** The number of entries of a list that are objects the lookups can be made on. */
  function WellFormedCount(entries: seq<RawEntry>): nat
    decreases |entries|
  {
    if |entries| == 0 then 0 else (if entries[0].Entry? then 1 else 0) + WellFormedCount(entries[1..])
  }

  /** The lenient loop keeps one record per well-formed entry. */
  lemma {:induction false} LenientKeepsEveryEntry(entries: seq<RawEntry>)
    ensures |Batch.KeepParsed(entries, ParseFlightRecord)| == WellFormedCount(entries)
    decreases |entries|
  {
    if |entries| > 0 {
      LenientKeepsEveryEntry(entries[1..]);
    }
  }

  /** Why a response that came back did not yield records; each is caught by the generic handler. */
  datatype Cause =
    | TransportFailure   // any other exception raised while sending, a timeout for instance
    | BodyNotJson        // a 2xx body that does not decode
    | BodyNotObject      // a body that decodes to something other than an object
    | DataNull           // an object whose "data" is null, which the record count cannot measure

  /** What one attempt can raise, and the error raised when the loop never ran. */
  datatype FetchError = HttpStatusError(code: int) | ConnectError | UnexpectedError(cause: Cause) | RetryLoopEnded

  /** The loop over the response's "data" list: a missing list gives no records, a null one raises,
      otherwise the records of the entries that normalise, in input order. */
  function ParseResponse(data: DataField): (r: Result<seq<FlightRecord>, Cause>)
    ensures r.Failure? <==> data.Null?
    ensures r.Failure? ==> r.error == DataNull
    ensures data.Absent? ==> r == Success([])
    ensures data.List? ==> r.Success? && |r.value| == WellFormedCount(data.entries)
  {
    match data
    case Absent => Success([])
    case Null => Failure(DataNull)
    case List(entries) =>
      LenientKeepsEveryEntry(entries);
      Success(Batch.KeepParsed(entries, ParseFlightRecord))
  }

  /** Every record comes from an entry of the list that normalises to it. */
  lemma ParseResponseSound(entries: seq<RawEntry>)
    ensures forall k :: 0 <= k < |ParseResponse(List(entries)).value| ==>
      exists i :: 0 <= i < |entries| && ParseFlightRecord(entries[i]) == Success(ParseResponse(List(entries)).value[k])
  {
    Batch.KeepParsedSound(entries, ParseFlightRecord);
    assert ParseResponse(List(entries)).value == Batch.KeepParsed(entries, ParseFlightRecord);
  }

  /** A one-entry list gives that entry's record when it is well formed, and nothing when it is not.
      With `ParseResponseAppend` this fixes the records of every list. */
  lemma ParseResponseOne(e: RawEntry)
    ensures ParseResponse(List([e])) == Success(if e.Entry? then [ParseFlightRecord(e).value] else [])
  {
    Batch.KeepParsedOne(e, ParseFlightRecord);
  }

  /** Splitting the list anywhere and parsing the two halves gives the same records. */
  lemma ParseResponseAppend(xs: seq<RawEntry>, zs: seq<RawEntry>)
    ensures ParseResponse(List(xs + zs)).value == ParseResponse(List(xs)).value + ParseResponse(List(zs)).value
  {
    Batch.KeepParsedAppend(xs, zs, ParseFlightRecord);
  }

  /** When every entry is well formed, the i-th record is the i-th entry, normalised. */
  lemma ParseResponseKeepsOrder(entries: seq<RawEntry>)
    requires forall i :: 0 <= i < |entries| ==> entries[i].Entry?
    ensures ParseResponse(List(entries)).Success?
    ensures |ParseResponse(List(entries)).value| == |entries|
    ensures forall i :: 0 <= i < |entries| ==>
      ParseResponse(List(entries)).value[i] == ParseFlightRecord(entries[i]).value
  {
    Batch.KeepParsedAllSucceed(entries, ParseFlightRecord);
  }

  /** The configuration the client reads. */
  datatype Settings = Settings(accessKey: string, baseUrl: string, maxRetries: int, timeoutSeconds: int)

  const DefaultMaxRetries: int := 3
  const DefaultTimeoutSeconds: int := 30

  /** The settings with every field at its declared default. */
  const DefaultSettings: Settings :=
    Settings("test-key-e2e", "https://api.aviationstack.com/v1", DefaultMaxRetries, DefaultTimeoutSeconds)

  /** A query parameter's value: the client sends strings and one integer. */
  datatype ParamValue = Str(s: string) | Int(n: int)

  /** One GET request: the URL and the query parameters in the order they are written. */
  datatype Request = Request(url: string, params: seq<(string, ParamValue)>)

  /** The value of a query parameter, if the request carries it. */
  function Param(r: Request, key: string): Option<ParamValue>
    decreases |r.params|
  {
    if |r.params| == 0 then None
    else if r.params[0].0 == key then Some(r.params[0].1)
    else Param(Request(r.url, r.params[1..]), key)
  }

  /** The request every attempt sends: the flights endpoint under the base URL, with the access key,
      the date and the fixed filter to flights delayed on arrival by at least one minute. */
  function BuildRequest(settings: Settings, query: QueryParams): (r: Request)
    ensures r.url == settings.baseUrl + "/flights"
    ensures |r.params| == 3
    ensures Param(r, "access_key") == Some(Str(settings.accessKey))
    ensures Param(r, "flight_date") == Some(Str(query.flightDate))
    ensures Param(r, "min_delay_arr") == Some(Int(1))
  {
    var r := Request(settings.baseUrl + "/flights",
      [("access_key", Str(settings.accessKey)), ("flight_date", Str(query.flightDate)), ("min_delay_arr", Int(1))]);
    assert Param(Request(r.url, r.params[2..]), "min_delay_arr") == Some(Int(1));
    assert Param(Request(r.url, r.params[1..]), "min_delay_arr") == Some(Int(1));
    r
  }

  /** The request sends nothing but these three parameters, and the date is the only part of the query it uses. */
  lemma RequestParamsExact(settings: Settings, query: QueryParams, other: QueryParams, key: string)
    requires key != "access_key" && key != "flight_date" && key != "min_delay_arr"
    ensures Param(BuildRequest(settings, query), key) == None
    ensures BuildRequest(settings, query) == BuildRequest(settings, other) <==> query == other
  {
    var r := BuildRequest(settings, query);
    assert Param(Request(r.url, r.params[3..]), key) == None;
    assert Param(Request(r.url, r.params[2..]), key) == None;
    assert Param(Request(r.url, r.params[1..]), key) == None;
    if BuildRequest(settings, query) == BuildRequest(settings, other) {
      assert BuildRequest(settings, other).params[1] == ("flight_date", Str(other.flightDate));
    }
  }

  /** A decoded response body, or one that does not decode as JSON. */
  datatype Body = Undecodable | Decoded(doc: Document)

  /** What one attempt meets: a response with its status code and body, a connection failure, or any
      other exception raised while sending. */
  datatype Outcome = Response(status: int, body: Body) | ConnectFailure | OtherFailure

  /** `raise_for_status` passes exactly the 2xx codes. */
  predicate IsSuccessStatus(code: int) {
    200 <= code <= 299
  }

  /** One attempt, past the rate-limit check: the records it returns or the error it raises. */
  function Exchange(o: Outcome): (r: Result<seq<FlightRecord>, FetchError>)
    ensures r.Success? <==>
      o.Response? && IsSuccessStatus(o.status) && o.body.Decoded? && o.body.doc.Object? && !o.body.doc.data.Null?
    ensures o.Response? && !IsSuccessStatus(o.status) ==> r == Failure(HttpStatusError(o.status))
    ensures o.ConnectFailure? ==> r == Failure(ConnectError)
    ensures o.OtherFailure? ==> r == Failure(UnexpectedError(TransportFailure))
    ensures o.Response? && IsSuccessStatus(o.status) && o.body.Undecodable? ==> r == Failure(UnexpectedError(BodyNotJson))
    ensures o.Response? && IsSuccessStatus(o.status) && o.body.Decoded? && o.body.doc.NonObject? ==>
      r == Failure(UnexpectedError(BodyNotObject))
    ensures o.Response? && IsSuccessStatus(o.status) && o.body.Decoded? && o.body.doc.Object? && o.body.doc.data.Null? ==>
      r == Failure(UnexpectedError(DataNull))
    ensures r.Failure? ==> r.error != RetryLoopEnded
    ensures r.Success? ==> Success(r.value) == ParseResponse(o.body.doc.data)
  {
    match o
    case ConnectFailure => Failure(ConnectError)
    case OtherFailure => Failure(UnexpectedError(TransportFailure))
    case Response(code, body) =>
      if !IsSuccessStatus(code) then Failure(HttpStatusError(code))
      else
        match body
        case Undecodable => Failure(UnexpectedError(BodyNotJson))
        case Decoded(NonObject) => Failure(UnexpectedError(BodyNotObject))
        case Decoded(Object(data)) =>
          match ParseResponse(data)
          case Success(records) => Success(records)
          case Failure(cause) => Failure(UnexpectedError(cause))
  }

  /** `2 ** n` seconds: the back-off after failed attempt n. */
  function Pow2(n: nat): (p: nat)
    ensures p >= 1
  {
    if n == 0 then 1 else 2 * Pow2(n - 1)
  }

  /** The sleeps that follow the first `n` attempts when each of them fails: 1, 2, 4, ... */
  function Backoffs(n: nat): (s: seq<nat>)
    ensures |s| == n
    ensures forall i :: 0 <= i < n ==> s[i] == Pow2(i)
  {
    seq(n, i requires 0 <= i => Pow2(i))
  }

  /** What one pass of the loop body does next. */
  datatype Step = Return(records: seq<FlightRecord>) | Raise(error: FetchError) | Backoff(seconds: nat)

  /** The exception handlers: re-raise on the final attempt, otherwise sleep `2 ** attempt`. */
  function OnError(error: FetchError, attempt: nat, maxRetries: int): Step {
    if attempt == maxRetries - 1 then Raise(error) else Backoff(Pow2(attempt))
  }

  /** One pass of the loop body, attempt `attempt` of `maxRetries`: a 429 before the final attempt
      backs off straight away; anything else is checked and decoded, and its error handled. */
  function AttemptStep(o: Outcome, attempt: nat, maxRetries: int): (s: Step)
    requires attempt < maxRetries
    ensures s.Return? <==> Exchange(o).Success?
    ensures s.Return? ==> s.records == Exchange(o).value
    ensures s.Raise? <==> Exchange(o).Failure? && attempt == maxRetries - 1
    ensures s.Raise? ==> s.error == Exchange(o).error
    ensures s.Backoff? ==> s.seconds == Pow2(attempt)
  {
    if o.Response? && o.status == 429 && attempt < maxRetries - 1 then Backoff(Pow2(attempt))
    else
      match Exchange(o)
      case Success(records) => Return(records)
      case Failure(error) => OnError(error, attempt, maxRetries)
  }

  /** The rate-limit short cut behaves exactly as letting the 429 raise and be handled would. */
  lemma RateLimitLikeStatusError(o: Outcome, attempt: nat, maxRetries: int)
    requires attempt < maxRetries
    requires o.Response? && o.status == 429
    ensures AttemptStep(o, attempt, maxRetries) == OnError(HttpStatusError(429), attempt, maxRetries)
  {
  }

  /** A 2xx response whose body does not decode is retried like any other failure, not surfaced. */
  lemma UndecodableBodyRetried(code: int, attempt: nat, maxRetries: int)
    requires IsSuccessStatus(code) && attempt < maxRetries - 1
    ensures AttemptStep(Response(code, Undecodable), attempt, maxRetries) == Backoff(Pow2(attempt))
  {
  }

  /** How a call ends: its records or error, the number of attempts made, the sleeps in order. */
  datatype Run = Run(result: Result<seq<FlightRecord>, FetchError>, attempts: nat, sleeps: seq<nat>)

  /** The retry loop from attempt `attempt` on; `outcomes[i]` is what attempt i meets. */
  function RetryFrom(outcomes: seq<Outcome>, maxRetries: int, attempt: nat): (r: Run)
    requires maxRetries <= |outcomes|
    ensures attempt >= maxRetries ==> r == Run(Failure(RetryLoopEnded), attempt, [])
    ensures attempt < maxRetries ==> attempt < r.attempts <= maxRetries
    ensures attempt < maxRetries ==> |r.sleeps| == r.attempts - attempt - 1
    ensures forall i :: 0 <= i < |r.sleeps| ==> r.sleeps[i] == Pow2(attempt + i)
    ensures r.result == Failure(RetryLoopEnded) <==> attempt >= maxRetries
    ensures attempt < maxRetries && r.result.Failure? ==> r.attempts == maxRetries
    ensures attempt < maxRetries ==> r.result == Exchange(outcomes[r.attempts - 1])
    ensures forall i :: attempt <= i < r.attempts - 1 ==> Exchange(outcomes[i]).Failure?
    decreases maxRetries - attempt
  {
    if attempt >= maxRetries then Run(Failure(RetryLoopEnded), attempt, [])
    else
      match AttemptStep(outcomes[attempt], attempt, maxRetries)
      case Return(records) => Run(Success(records), attempt + 1, [])
      case Raise(error) => Run(Failure(error), attempt + 1, [])
      case Backoff(seconds) =>
        var rest := RetryFrom(outcomes, maxRetries, attempt + 1);
        Run(rest.result, rest.attempts, [seconds] + rest.sleeps)
  }

  /** `get_flights`: the request built once, then the retry loop from attempt 0. */
  function GetFlights(settings: Settings, query: QueryParams, outcomes: seq<Outcome>): (r: (Request, Run))
    requires settings.maxRetries <= |outcomes|
    ensures r.0 == BuildRequest(settings, query)
    ensures r.1.attempts <= if settings.maxRetries > 0 then settings.maxRetries else 0
    ensures settings.maxRetries > 0 ==> 1 <= r.1.attempts
    ensures settings.maxRetries <= 0 ==> r.1 == Run(Failure(RetryLoopEnded), 0, [])
    ensures settings.maxRetries > 0 ==> r.1.result == Exchange(outcomes[r.1.attempts - 1])
    ensures settings.maxRetries > 0 && r.1.result.Failure? ==> r.1.attempts == settings.maxRetries
    ensures forall i :: 0 <= i < r.1.attempts - 1 ==> Exchange(outcomes[i]).Failure?
    ensures |r.1.sleeps| == if r.1.attempts > 0 then r.1.attempts - 1 else 0
    ensures forall i :: 0 <= i < |r.1.sleeps| ==> r.1.sleeps[i] == Pow2(i)
  {
    (BuildRequest(settings, query), RetryFrom(outcomes, settings.maxRetries, 0))
  }

  /** The first attempt that gets records ends the loop: attempts 0..k-1 failed, so k + 1 attempts
      were made, with a sleep of 2^i seconds after each failed attempt i. */
  lemma RetryFirstSuccess(outcomes: seq<Outcome>, maxRetries: int, k: nat)
    requires k < maxRetries <= |outcomes|
    requires forall i :: 0 <= i < k ==> Exchange(outcomes[i]).Failure?
    requires Exchange(outcomes[k]).Success?
    ensures RetryFrom(outcomes, maxRetries, 0) == Run(Exchange(outcomes[k]), k + 1, Backoffs(k))
  {
    var r := RetryFrom(outcomes, maxRetries, 0);
    assert r.result == Exchange(outcomes[r.attempts - 1]);
    assert r.attempts == k + 1;
    assert r.sleeps == Backoffs(k);
  }

  /** When every attempt fails, all `maxRetries` attempts are made and the last one's error is raised. */
  lemma RetryAllFail(outcomes: seq<Outcome>, maxRetries: int)
    requires 0 < maxRetries <= |outcomes|
    requires forall i :: 0 <= i < maxRetries ==> Exchange(outcomes[i]).Failure?
    ensures RetryFrom(outcomes, maxRetries, 0) == Run(Exchange(outcomes[maxRetries - 1]), maxRetries, Backoffs(maxRetries - 1))
  {
    var r := RetryFrom(outcomes, maxRetries, 0);
    assert r.result == Exchange(outcomes[r.attempts - 1]);
    assert r.sleeps == Backoffs(maxRetries - 1);
  }

  /** A 429 on the final attempt, after failures, surfaces as a status error carrying 429. */
  lemma Final429Surfaces(outcomes: seq<Outcome>, maxRetries: int, body: Body)
    requires 0 < maxRetries <= |outcomes|
    requires forall i :: 0 <= i < maxRetries ==> Exchange(outcomes[i]).Failure?
    requires outcomes[maxRetries - 1] == Response(429, body)
    ensures RetryFrom(outcomes, maxRetries, 0).result == Failure(HttpStatusError(429))
    ensures RetryFrom(outcomes, maxRetries, 0).attempts == maxRetries
  {
    RetryAllFail(outcomes, maxRetries);
  }

  /** With no attempts allowed the loop body never runs and the end-of-loop error is raised. */
  lemma NoAttemptsEndsLoop(settings: Settings, query: QueryParams, outcomes: seq<Outcome>)
    requires settings.maxRetries <= 0
    ensures GetFlights(settings, query, outcomes).1 == Run(Failure(RetryLoopEnded), 0, [])
  {
  }

  /** Outcomes past the last permitted attempt are never looked at. */
  lemma {:induction false} RetryIgnoresLaterOutcomes(xs: seq<Outcome>, ys: seq<Outcome>, maxRetries: int, attempt: nat)
    requires maxRetries <= |xs| && maxRetries <= |ys|
    requires forall i :: attempt <= i < maxRetries ==> xs[i] == ys[i]
    ensures RetryFrom(xs, maxRetries, attempt) == RetryFrom(ys, maxRetries, attempt)
    decreases maxRetries - attempt
  {
    if attempt < maxRetries {
      RetryIgnoresLaterOutcomes(xs, ys, maxRetries, attempt + 1);
    }
  }

  /** Four runs with the default settings' three attempts: success on the third attempt after two
      connection failures, success after a rate-limited first attempt, three connection failures,
      and a 429 on the final attempt after two server errors. */
  lemma DefaultRetryScenarios(ok: Document)
    requires ok.Object? && ok.data == Absent
    ensures RetryFrom([ConnectFailure, ConnectFailure, Response(200, Decoded(ok))], DefaultSettings.maxRetries, 0)
      == Run(Success([]), 3, [1, 2])
    ensures RetryFrom([Response(429, Decoded(ok)), Response(200, Decoded(ok)), ConnectFailure], DefaultSettings.maxRetries, 0)
      == Run(Success([]), 2, [1])
    ensures RetryFrom([ConnectFailure, ConnectFailure, ConnectFailure], DefaultSettings.maxRetries, 0)
      == Run(Failure(ConnectError), 3, [1, 2])
    ensures RetryFrom([Response(500, Undecodable), Response(503, Undecodable), Response(429, Undecodable)], DefaultSettings.maxRetries, 0)
      == Run(Failure(HttpStatusError(429)), 3, [1, 2])
  {
    var n := DefaultSettings.maxRetries;
    assert n == 3;
    var a := [ConnectFailure, ConnectFailure, Response(200, Decoded(ok))];
    RetryFirstSuccess(a, n, 2);
    assert Backoffs(2) == [1, 2];
    var b := [Response(429, Decoded(ok)), Response(200, Decoded(ok)), ConnectFailure];
    RetryFirstSuccess(b, n, 1);
    assert Backoffs(1) == [1];
    var c := [ConnectFailure, ConnectFailure, ConnectFailure];
    RetryAllFail(c, n);
    var d := [Response(500, Undecodable), Response(503, Undecodable), Response(429, Undecodable)];
    RetryAllFail(d, n);
  }
}

=== FILE: batch.dfy ===
/** The loop both parsers run over the "data" list: try each entry, keep what parses, skip the rest. */
module Batch {
  import opened Wrappers

  /** The values of the entries that parse, in input order; an entry that fails is skipped. */
  function KeepParsed<A, B, E>(xs: seq<A>, parse: A -> Result<B, E>): (ys: seq<B>)
    ensures |ys| <= |xs|
    decreases |xs|
  {
    if |xs| == 0 then []
    else
      var rest := KeepParsed(xs[1..], parse);
      match parse(xs[0])
      case Success(y) => [y] + rest
      case Failure(_) => rest
  }

  /** Every value kept comes from an entry that parsed to it. */
  lemma {:induction false} KeepParsedSound<A, B, E>(xs: seq<A>, parse: A -> Result<B, E>)
    ensures forall k :: 0 <= k < |KeepParsed(xs, parse)| ==>
      exists i :: 0 <= i < |xs| && parse(xs[i]) == Success(KeepParsed(xs, parse)[k])
    decreases |xs|
  {
    if |xs| > 0 {
      var rest := KeepParsed(xs[1..], parse);
      KeepParsedSound(xs[1..], parse);
      forall k | 0 <= k < |KeepParsed(xs, parse)|
        ensures exists i :: 0 <= i < |xs| && parse(xs[i]) == Success(KeepParsed(xs, parse)[k])
      {
        var j := if parse(xs[0]).Success? then k - 1 else k;
        if j < 0 {
          assert parse(xs[0]) == Success(KeepParsed(xs, parse)[k]);
        } else {
          assert KeepParsed(xs, parse)[k] == rest[j];
          var i :| 0 <= i < |xs[1..]| && parse(xs[1..][i]) == Success(rest[j]);
          assert parse(xs[i + 1]) == Success(KeepParsed(xs, parse)[k]);
        }
      }
    } else {
      assert KeepParsed(xs, parse) == [];
    }
  }

  /** The loop is a homomorphism: running it over two halves and concatenating gives the same list. */
  lemma {:induction false} KeepParsedAppend<A, B, E>(xs: seq<A>, zs: seq<A>, parse: A -> Result<B, E>)
    ensures KeepParsed(xs + zs, parse) == KeepParsed(xs, parse) + KeepParsed(zs, parse)
    decreases |xs|
  {
    if |xs| > 0 {
      assert (xs + zs)[1..] == xs[1..] + zs;
      KeepParsedAppend(xs[1..], zs, parse);
    } else {
      assert xs + zs == zs;
    }
  }

  /** One entry on its own: its value if it parses, nothing if it does not. */
  lemma KeepParsedOne<A, B, E>(x: A, parse: A -> Result<B, E>)
    ensures KeepParsed([x], parse) == if parse(x).Success? then [parse(x).value] else []
  {
    assert [x][1..] == [];
  }

  /** An entry that fails never aborts the batch: the entries around it are kept exactly as without it. */
  lemma KeepParsedSkipsFailure<A, B, E>(xs: seq<A>, x: A, zs: seq<A>, parse: A -> Result<B, E>)
    requires parse(x).Failure?
    ensures KeepParsed(xs + [x] + zs, parse) == KeepParsed(xs, parse) + KeepParsed(zs, parse)
  {
    KeepParsedAppend(xs + [x], zs, parse);
    KeepParsedAppend(xs, [x], parse);
    KeepParsedOne(x, parse);
  }

  /** When every entry parses, nothing is dropped and the order is kept. */
  lemma {:induction false} KeepParsedAllSucceed<A, B, E>(xs: seq<A>, parse: A -> Result<B, E>)
    requires forall i :: 0 <= i < |xs| ==> parse(xs[i]).Success?
    ensures |KeepParsed(xs, parse)| == |xs|
    ensures forall i :: 0 <= i < |xs| ==> KeepParsed(xs, parse)[i] == parse(xs[i]).value
    decreases |xs|
  {
    if |xs| > 0 {
      assert forall i :: 0 <= i < |xs| - 1 ==> xs[1..][i] == xs[i + 1];
      KeepParsedAllSucceed(xs[1..], parse);
    }
  }

  /** When no entry parses, the result is empty. */
  lemma {:induction false} KeepParsedNoneSucceed<A, B, E>(xs: seq<A>, parse: A -> Result<B, E>)
    requires forall i :: 0 <= i < |xs| ==> parse(xs[i]).Failure?
    ensures KeepParsed(xs, parse) == []
    decreases |xs|
  {
    if |xs| > 0 {
      assert forall i :: 0 <= i < |xs| - 1 ==> xs[1..][i] == xs[i + 1];
      KeepParsedNoneSucceed(xs[1..], parse);
    }
  }

  /** A parser that accepts at least what another accepts keeps at least as many entries. */
  lemma {:induction false} KeepParsedLengthMonotone<A, B, C, E, F>(xs: seq<A>, p: A -> Result<B, E>, q: A -> Result<C, F>)
    requires forall i :: 0 <= i < |xs| ==> p(xs[i]).Success? ==> q(xs[i]).Success?
    ensures |KeepParsed(xs, p)| <= |KeepParsed(xs, q)|
    decreases |xs|
  {
    if |xs| > 0 {
      assert forall i :: 0 <= i < |xs| - 1 ==> xs[1..][i] == xs[i + 1];
      KeepParsedLengthMonotone(xs[1..], p, q);
    }
  }
}

=== FILE: cli.dfy ===
/** The pure parts of the command line: the summary statistics, the saved-output mapping and the
    table's delay cell. */
module Cli {
  import opened Wrappers
  import opened Text
  import opened Models

  /** The number of records whose category is in `cats`. */
  function CountIn(records: seq<FlightRecord>, cats: set<DelayCategory>): nat
    decreases |records|
  {
    if |records| == 0 then 0
    else CountIn(records[..|records| - 1], cats) + (if records[|records| - 1].flightStatus in cats then 1 else 0)
  }

  /** The delays summed over the records that are not cancelled (diverted ones included). */
  function DelaySum(records: seq<FlightRecord>): int
    decreases |records|
  {
    if |records| == 0 then 0
    else
      var last := records[|records| - 1];
      DelaySum(records[..|records| - 1]) + (if last.flightStatus != Cancelled then last.arrivalDelay else 0)
  }

  /** The categories the summary counts as delayed. */
  const DelayedCategories: set<DelayCategory> := {MinorDelay, MajorDelay, SevereDelay}

  /** The summary; the average delay is kept as the exact pair (sum, count) it is computed from. */
  datatype SummaryStats = SummaryStats(
    total: nat, onTime: nat, delayed: nat, cancelled: nat, delaySum: int, delayCount: nat)

  /** The summary of a list of records. The three counts leave diverted flights out; the average is
      over every flight that is not cancelled. */
  function GenerateSummaryStats(records: seq<FlightRecord>): (s: SummaryStats)
    ensures s.total == |records|
    ensures s.onTime + s.delayed + s.cancelled + CountIn(records, {Diverted}) == s.total
    ensures s.delayCount == s.total - s.cancelled
    ensures s.onTime + s.delayed + s.cancelled <= s.total
  {
    CountPartition(records);
    SummaryStats(|records|, CountIn(records, {OnTime}), CountIn(records, DelayedCategories),
      CountIn(records, {Cancelled}), DelaySum(records), |records| - CountIn(records, {Cancelled}))
  }

  /** Every record falls in exactly one of on time, delayed, cancelled and diverted. */
  lemma {:induction false} CountPartition(records: seq<FlightRecord>)
    ensures CountIn(records, {OnTime}) + CountIn(records, DelayedCategories) + CountIn(records, {Cancelled})
      + CountIn(records, {Diverted}) == |records|
    decreases |records|
  {
    if |records| > 0 {
      CountPartition(records[..|records| - 1]);
      match records[|records| - 1].flightStatus
      case OnTime =>
      case MinorDelay => assert MinorDelay in DelayedCategories;
      case MajorDelay => assert MajorDelay in DelayedCategories;
      case SevereDelay => assert SevereDelay in DelayedCategories;
      case Cancelled => assert Cancelled !in DelayedCategories;
      case Diverted => assert Diverted !in DelayedCategories;
    }
  }

  /** Counting distributes over concatenation. */
  lemma {:induction false} CountAppend(xs: seq<FlightRecord>, ys: seq<FlightRecord>, cats: set<DelayCategory>)
    ensures CountIn(xs + ys, cats) == CountIn(xs, cats) + CountIn(ys, cats)
    decreases |ys|
  {
    if |ys| > 0 {
      assert (xs + ys)[..|xs + ys| - 1] == xs + ys[..|ys| - 1];
      CountAppend(xs, ys[..|ys| - 1], cats);
    } else {
      assert xs + ys == xs;
    }
  }

  /** Summing distributes over concatenation. */
  lemma {:induction false} DelaySumAppend(xs: seq<FlightRecord>, ys: seq<FlightRecord>)
    ensures DelaySum(xs + ys) == DelaySum(xs) + DelaySum(ys)
    decreases |ys|
  {
    if |ys| > 0 {
      assert (xs + ys)[..|xs + ys| - 1] == xs + ys[..|ys| - 1];
      DelaySumAppend(xs, ys[..|ys| - 1]);
    } else {
      assert xs + ys == xs;
    }
  }

  /** The summary of two lists joined is the field-wise sum of their summaries. */
  lemma SummaryAppend(xs: seq<FlightRecord>, ys: seq<FlightRecord>)
    ensures var a := GenerateSummaryStats(xs);
      var b := GenerateSummaryStats(ys);
      GenerateSummaryStats(xs + ys) == SummaryStats(a.total + b.total, a.onTime + b.onTime,
        a.delayed + b.delayed, a.cancelled + b.cancelled, a.delaySum + b.delaySum, a.delayCount + b.delayCount)
  {
    CountAppend(xs, ys, {OnTime});
    CountAppend(xs, ys, DelayedCategories);
    CountAppend(xs, ys, {Cancelled});
    DelaySumAppend(xs, ys);
  }

  /** No records: every count and the delay sum are zero. */
  lemma SummaryEmpty()
    ensures GenerateSummaryStats([]) == SummaryStats(0, 0, 0, 0, 0, 0)
  {
  }

  /** One record: it is counted under its own category only, and its delay enters the average unless
      the flight is cancelled. With `SummaryAppend` this fixes the summary of every list. */
  lemma SummaryOne(r: FlightRecord)
    ensures GenerateSummaryStats([r]) == SummaryStats(1,
      if r.flightStatus == OnTime then 1 else 0,
      if r.flightStatus.IsDelayed() then 1 else 0,
      if r.flightStatus == Cancelled then 1 else 0,
      if r.flightStatus == Cancelled then 0 else r.arrivalDelay,
      if r.flightStatus == Cancelled then 0 else 1)
  {
    assert [r][..0] == [];
    assert r.flightStatus in DelayedCategories <==> r.flightStatus.IsDelayed();
    assert CountIn([r], DelayedCategories) == if r.flightStatus in DelayedCategories then 1 else 0;
    assert CountIn([r], {OnTime}) == if r.flightStatus == OnTime then 1 else 0;
    assert CountIn([r], {Cancelled}) == if r.flightStatus == Cancelled then 1 else 0;
    assert DelaySum([r]) == if r.flightStatus == Cancelled then 0 else r.arrivalDelay;
  }

  /** A fraction with a positive denominator. */
  datatype Ratio = Ratio(num: int, den: nat)

  /** The average delay as an exact fraction; 0 when every flight is cancelled. */
  function AverageDelay(s: SummaryStats): (a: Ratio)
    ensures a.den >= 1
    ensures s.delayCount == 0 ==> a.num == 0
    ensures s.delayCount > 0 ==> a.num * s.delayCount == s.delaySum * a.den
  {
    if s.delayCount == 0 then Ratio(0, 1) else Ratio(s.delaySum, s.delayCount)
  }

  /** If every non-cancelled flight's delay lies in [lo, hi], the delay sum lies between lo and hi
      times the number of non-cancelled flights. */
  lemma {:induction false} DelaySumBounds(records: seq<FlightRecord>, lo: int, hi: int)
    requires forall i :: 0 <= i < |records| && records[i].flightStatus != Cancelled ==>
      lo <= records[i].arrivalDelay <= hi
    ensures var n := |records| - CountIn(records, {Cancelled});
      lo * n <= DelaySum(records) <= hi * n
    decreases |records|
  {
    if |records| > 0 {
      var init := records[..|records| - 1];
      assert forall i :: 0 <= i < |init| ==> init[i] == records[i];
      DelaySumBounds(init, lo, hi);
      var m := |init| - CountIn(init, {Cancelled});
      var last := records[|records| - 1];
      if last.flightStatus != Cancelled {
        assert lo * (m + 1) == lo * m + lo;
        assert hi * (m + 1) == hi * m + hi;
      }
    }
  }

  /** If every non-cancelled flight's delay lies in [lo, hi] and some flight is not cancelled, the
      average lies in [lo, hi] too. */
  lemma AverageWithinBounds(records: seq<FlightRecord>, lo: int, hi: int)
    requires forall i :: 0 <= i < |records| && records[i].flightStatus != Cancelled ==>
      lo <= records[i].arrivalDelay <= hi
    requires CountIn(records, {Cancelled}) < |records|
    ensures var a := AverageDelay(GenerateSummaryStats(records));
      lo * a.den <= a.num <= hi * a.den
  {
    DelaySumBounds(records, lo, hi);
  }

  /** One element of the saved "flights" list. */
  datatype SavedFlight = SavedFlight(
    flightIcao: string, originIcao: string, destinationIcao: string,
    arrivalDelay: int, flightStatus: string, flightDate: string)

  /** The saved file: the query date, the record count and the simplified records. */
  datatype SavedOutput = SavedOutput(queryDate: string, recordCount: nat, flights: seq<SavedFlight>)

  /** The simplified form of one record; the category is written as its display string. */
  function SaveFlight(r: FlightRecord): SavedFlight {
    SavedFlight(r.flightIcao, r.originIcao, r.destinationIcao, r.arrivalDelay, r.flightStatus.Value(), r.flightDate)
  }

  /** What `--save-to-file` writes: one entry per record, in order. */
  function SaveData(queryDate: string, records: seq<FlightRecord>): (out: SavedOutput)
    ensures out.queryDate == queryDate
    ensures out.recordCount == |records| == |out.flights|
    ensures forall i :: 0 <= i < |records| ==> out.flights[i] == SaveFlight(records[i])
  {
    SavedOutput(queryDate, |records|, seq(|records|, i requires 0 <= i < |records| => SaveFlight(records[i])))
  }

  /** Saving a list with a record in front puts that record's entry in front. */
  lemma SaveDataCons(queryDate: string, first: FlightRecord, rest: seq<FlightRecord>)
    ensures SaveData(queryDate, [first] + rest).flights == [SaveFlight(first)] + SaveData(queryDate, rest).flights
  {
    var a := SaveData(queryDate, [first] + rest).flights;
    var b := [SaveFlight(first)] + SaveData(queryDate, rest).flights;
    assert |a| == |b|;
    forall i | 0 <= i < |a| ensures a[i] == b[i] {
      if i > 0 {
        assert ([first] + rest)[i] == rest[i - 1];
      }
    }
  }

  /** Reading one saved entry back; fails on a status that is not a category's display string. */
  function LoadFlight(f: SavedFlight): (r: Option<FlightRecord>)
    ensures r.Some? ==> SaveFlight(r.value) == f
  {
    match CategoryOf(f.flightStatus)
    case Some(c) => Some(FlightRecord(f.arrivalDelay, f.destinationIcao, f.flightDate, f.flightIcao, c, f.originIcao))
    case None => None
  }

  /** Reading a saved file back; fails if any entry fails or the count disagrees with the list. */
  function LoadSaved(out: SavedOutput): (r: Option<seq<FlightRecord>>)
    ensures r.Some? ==> |r.value| == out.recordCount
    ensures r.Some? ==> SaveData(out.queryDate, r.value) == out
    decreases |out.flights|
  {
    if out.recordCount != |out.flights| then None
    else if |out.flights| == 0 then Some([])
    else
      match LoadFlight(out.flights[0])
      case None => None
      case Some(first) =>
        match LoadSaved(SavedOutput(out.queryDate, out.recordCount - 1, out.flights[1..]))
        case None => None
        case Some(rest) =>
          SaveDataCons(out.queryDate, first, rest);
          assert [out.flights[0]] + out.flights[1..] == out.flights;
          Some([first] + rest)
  }

  /** Saving loses nothing: every record, its category included, can be read back. */
  lemma {:induction false} SaveLoadRoundTrip(queryDate: string, records: seq<FlightRecord>)
    ensures LoadSaved(SaveData(queryDate, records)) == Some(records)
    decreases |records|
  {
    if |records| > 0 {
      var out := SaveData(queryDate, records);
      var tail := SaveData(queryDate, records[1..]);
      ValueRoundTrip(records[0].flightStatus);
      assert LoadFlight(out.flights[0]) == Some(records[0]);
      assert tail.flights == out.flights[1..];
      SaveLoadRoundTrip(queryDate, records[1..]);
      assert [records[0]] + records[1..] == records;
    }
  }

  /** The table's delay cell: "<n> min" for a positive delay, "N/A" otherwise. */
  function DelayCell(delay: int): (cell: string)
    ensures cell == "N/A" <==> delay <= 0
  {
    if delay > 0 then DecimalString(delay) + " min" else "N/A"
  }

  /** Reading a delay cell back; "N/A" reads as 0. */
  function ReadDelayCell(cell: string): Option<int> {
    if cell == "N/A" then Some(0)
    else if |cell| > 4 && cell[|cell| - 4..] == " min" && AllDigits(cell[..|cell| - 4]) then
      Some(DecimalValue(cell[..|cell| - 4]))
    else None
  }

  /** The cell shows a positive delay exactly and every other delay as "N/A". */
  lemma DelayCellRoundTrip(delay: int)
    ensures ReadDelayCell(DelayCell(delay)) == Some(if delay > 0 then delay else 0)
  {
    if delay > 0 {
      var digits := DecimalString(delay);
      var cell := digits + " min";
      assert cell[..|cell| - 4] == digits;
      assert cell[|cell| - 4..] == " min";
      DecimalRoundTrip(delay);
    }
  }
}

=== FILE: consistency.dfy ===
/** How the two copies of the classifier and the two normalisers relate. */
module Consistency {
  import opened Wrappers
  import opened Text
  import opened Models
  import opened RawJson
  import Batch
  import DataParser
  import ApiClient

  /** The two classifiers agree once the client's null delay is read as 0. */
  lemma ClassifiersAgree(status: string, delay: Option<int>)
    ensures ApiClient.DetermineDelayCategory(status, delay) == DataParser.DetermineDelayCategory(status, delay.GetOr(0))
  {
  }

  /** Whatever the strict normaliser accepts, the lenient one accepts too, with the same identifiers
      and category; the two records differ only in the date, which only the strict one normalises,
      and in the delay, which only the strict one zeroes for a cancelled or diverted flight. */
  lemma StrictRefinesLenient(e: RawEntry)
    requires DataParser.ParseFlightData(e).Success?
    ensures ApiClient.ParseFlightRecord(e).Success?
    ensures var s := DataParser.ParseFlightData(e).value;
      var l := ApiClient.ParseFlightRecord(e).value;
      && s.flightIcao == l.flightIcao
      && s.originIcao == l.originIcao
      && s.destinationIcao == l.destinationIcao
      && s.flightStatus == l.flightStatus
      && s.flightDate == DataParser.NormalizeDateFormat(l.flightDate)
      && s.arrivalDelay == (if s.flightStatus.IsSpecial() then 0 else l.arrivalDelay)
  {
    ClassifiersAgree(Lower(StatusOf(e)), DelayOf(e.arrival));
  }

  /** For a well-formed entry, the strict normaliser succeeds exactly when the lenient record has a
      non-empty date and non-empty identifiers. */
  lemma StrictAcceptsCompleteLenient(e: RawEntry)
    requires e.Entry?
    ensures var l := ApiClient.ParseFlightRecord(e).value;
      DataParser.ParseFlightData(e).Success? <==>
        l.flightDate != "" && l.flightIcao != "" && l.originIcao != "" && l.destinationIcao != ""
  {
    DataParser.StrictRejectsIncomplete(e);
    assert DataParser.RequiredValue(e, FlightDateField) == e.flightDate.GetOr("");
    assert DataParser.RequiredValue(e, FlightIcaoField) == IcaoOf(e.flight);
    assert DataParser.RequiredValue(e, DepartureIcaoField) == IcaoOf(e.departure);
    assert DataParser.RequiredValue(e, ArrivalIcaoField) == IcaoOf(e.arrival);
  }

  /** The paths disagree on a cancelled or diverted flight reported late: the file keeps 0, the
      network keeps the reported delay. */
  lemma DelayResetDiverges(e: RawEntry, d: int)
    requires DataParser.ParseFlightData(e).Success?
    requires Lower(StatusOf(e)) == "cancelled" || Lower(StatusOf(e)) == "diverted"
    requires DelayOf(e.arrival) == Some(d) && d != 0
    ensures DataParser.ParseFlightData(e).value.arrivalDelay == 0
    ensures ApiClient.ParseFlightRecord(e).value.arrivalDelay == d
    ensures DataParser.ParseFlightData(e).value != ApiClient.ParseFlightRecord(e).value
  {
    StrictRefinesLenient(e);
  }

  /** The file path never yields more records from a list than the network path does. */
  lemma StrictBatchNoLarger(entries: seq<RawEntry>)
    ensures |DataParser.ParseJsonData(List(entries))| <= |ApiClient.ParseResponse(List(entries)).value|
  {
    forall i | 0 <= i < |entries| && DataParser.ParseFlightData(entries[i]).Success?
      ensures ApiClient.ParseFlightRecord(entries[i]).Success?
    {
      StrictRefinesLenient(entries[i]);
    }
    Batch.KeepParsedLengthMonotone(entries, DataParser.ParseFlightData, ApiClient.ParseFlightRecord);
  }
}

=== FILE: data_parser.dfy ===
/** The file parser: the strict normaliser, date normalisation, its own copy of the classifier,
    the loop over the "data" list and the outcomes of parsing a file. */
module DataParser {
  import opened Wrappers
  import opened Text
  import opened Models
  import opened RawJson
  import Batch

  /** The classifier: the two special statuses first, then the delay bands. */
  function DetermineDelayCategory(status: string, delayMinutes: int): (c: DelayCategory)
    ensures c == Cancelled <==> status == "cancelled"
    ensures c == Diverted <==> status == "diverted"
    ensures !c.IsSpecial() ==> InBand(c, delayMinutes)
  {
    if status == "cancelled" then Cancelled
    else if status == "diverted" then Diverted
    else if delayMinutes <= 15 then OnTime
    else if delayMinutes <= 60 then MinorDelay
    else if delayMinutes <= 180 then MajorDelay
    else SevereDelay
  }

  /** For an ordinary status, a longer delay never gives a milder category. */
  lemma ClassifyMonotone(status: string, shorter: int, longer: int)
    requires status != "cancelled" && status != "diverted"
    requires shorter <= longer
    ensures Severity(DetermineDelayCategory(status, shorter)) <= Severity(DetermineDelayCategory(status, longer))
  {
  }

  /** Every delay up to the on-time limit, early arrivals included, is on time. */
  lemma ShortDelayIsOnTime(status: string, delayMinutes: int)
    requires status != "cancelled" && status != "diverted"
    requires delayMinutes <= OnTimeLimit
    ensures DetermineDelayCategory(status, delayMinutes) == OnTime
  {
  }

  /** The band edges: each limit belongs to the milder band, the next minute to the next one. */
  lemma ClassifyBoundaries()
    ensures DetermineDelayCategory("landed", 15) == OnTime
    ensures DetermineDelayCategory("landed", 16) == MinorDelay
    ensures DetermineDelayCategory("landed", 60) == MinorDelay
    ensures DetermineDelayCategory("landed", 61) == MajorDelay
    ensures DetermineDelayCategory("landed", 180) == MajorDelay
    ensures DetermineDelayCategory("landed", 181) == SevereDelay
    ensures DetermineDelayCategory("cancelled", 240) == Cancelled
    ensures DetermineDelayCategory("diverted", 60) == Diverted
  {
  }

  /** Already in `YYYY-MM-DD` layout: ten characters with '-' at indices 4 and 7. */
  predicate IsIsoShaped(s: string) {
    |s| == 10 && s[4] == '-' && s[7] == '-'
  }

  /** The year, the month padded to two digits and the day padded to two digits, joined by dashes. */
  function Assemble(year: string, month: string, day: string): (r: string)
    ensures |r| == |year| + |ZFill2(month)| + |ZFill2(day)| + 2
  {
    year + "-" + ZFill2(month) + "-" + ZFill2(day)
  }

  /** The '/' layouts: year first when the first piece has four characters, else year last when the
      last one does. */
  function SlashForm(s: string): Option<string> {
    if '/' in s then
      var parts := Split(s, '/');
      if |parts| == 3 then
        if |parts[0]| == 4 then Some(Assemble(parts[0], parts[1], parts[2]))
        else if |parts[2]| == 4 then Some(Assemble(parts[2], parts[0], parts[1]))
        else None
      else None
    else None
  }

  /** The '-' layout with the year last, read month first. */
  function DashForm(s: string): Option<string> {
    if '-' in s then
      var parts := Split(s, '-');
      if |parts| == 3 && |parts[2]| == 4 then Some(Assemble(parts[2], parts[0], parts[1]))
      else None
    else None
  }

  /** Date normalisation: strip, keep an ISO-shaped date, rewrite the '/' and '-' layouts to
      year-month-day, and return anything else stripped but otherwise unchanged. */
  function NormalizeDateFormat(raw: string): (r: string)
    ensures IsIsoShaped(Strip(raw)) ==> r == Strip(raw)
    ensures '/' !in Strip(raw) && '-' !in Strip(raw) ==> r == Strip(raw)
  {
    var s := Strip(raw);
    if IsIsoShaped(s) then s
    else
      match SlashForm(s)
      case Some(date) => date
      case None =>
        match DashForm(s)
        case Some(date) => date
        case None => s
  }

  /** "Y/M/D" with a four-character year becomes "Y-MM-DD". */
  lemma DateYearFirstWithSlashes(year: string, month: string, day: string)
    requires |year| == 4
    requires '/' !in year && '/' !in month && '/' !in day
    requires NoEdgeSpace(year + "/" + month + "/" + day)
    ensures NormalizeDateFormat(year + "/" + month + "/" + day) == Assemble(year, month, day)
  {
    var s := year + "/" + month + "/" + day;
    StripShape(s);
    SplitThree(year, month, day, '/');
    assert s[4] == '/';
    assert '/' in s;
  }

  /** "M/D/Y" with a four-character year, and a first piece that is not itself four long, becomes "Y-MM-DD". */
  lemma DateYearLastWithSlashes(month: string, day: string, year: string)
    requires |year| == 4 && |month| != 4
    requires '/' !in year && '/' !in month && '/' !in day
    requires NoEdgeSpace(month + "/" + day + "/" + year)
    requires !IsIsoShaped(month + "/" + day + "/" + year)
    ensures NormalizeDateFormat(month + "/" + day + "/" + year) == Assemble(year, month, day)
  {
    var s := month + "/" + day + "/" + year;
    StripShape(s);
    SplitThree(month, day, year, '/');
    assert s[|month|] == '/';
    assert SlashForm(s) == Some(Assemble(year, month, day));
  }

  /** "M-D-Y" with a four-character year becomes "Y-MM-DD": month first, whatever the locale meant. */
  lemma DateYearLastWithDashes(month: string, day: string, year: string)
    requires |year| == 4
    requires '-' !in year && '-' !in month && '-' !in day
    requires '/' !in year && '/' !in month && '/' !in day
    requires NoEdgeSpace(month + "-" + day + "-" + year)
    ensures NormalizeDateFormat(month + "-" + day + "-" + year) == Assemble(year, month, day)
  {
    var s := month + "-" + day + "-" + year;
    StripShape(s);
    SplitThree(month, day, year, '-');
    assert '/' !in s;
    assert SlashForm(s) == None;
    assert !IsIsoShaped(s) by {
      if |s| == 10 {
        assert s[7] == year[1];
      }
    }
    assert DashForm(s) == Some(Assemble(year, month, day)) by {
      assert s[|month|] == '-';
    }
  }

  /** A year-first date with slashes, as in the file-parser tests. */
  lemma DateExampleYearFirst()
    ensures NormalizeDateFormat("2024/01/02") == "2024-01-02"
  {
    assert "2024" + "/" + "01" + "/" + "02" == "2024/01/02";
    PrintableIsNotSpace('2');
    assert NoEdgeSpace("2024/01/02");
    assert Assemble("2024", "01", "02") == "2024-01-02";
    DateYearFirstWithSlashes("2024", "01", "02");
  }

  /** A month-first date with dashes, as in the file-parser tests. */
  lemma DateExampleMonthFirst()
    ensures NormalizeDateFormat("01-03-2024") == "2024-01-03"
  {
    assert "01" + "-" + "03" + "-" + "2024" == "01-03-2024";
    PrintableIsNotSpace('0');
    PrintableIsNotSpace('4');
    assert NoEdgeSpace("01-03-2024");
    assert Assemble("2024", "01", "03") == "2024-01-03";
    DateYearLastWithDashes("01", "03", "2024");
  }

  /** Single-digit pieces are padded to two digits. */
  lemma DateExamplePadded()
    ensures NormalizeDateFormat("2024/1/5") == "2024-01-05"
  {
    assert "2024" + "/" + "1" + "/" + "5" == "2024/1/5";
    PrintableIsNotSpace('2');
    PrintableIsNotSpace('5');
    assert NoEdgeSpace("2024/1/5");
    assert Assemble("2024", "1", "5") == "2024-01-05";
    DateYearFirstWithSlashes("2024", "1", "5");
  }

  /** Any other date, one with a separator included, is returned stripped but otherwise unchanged: no
      '/' split of three pieces with a four-character first or last piece, and no '-' split of three
      pieces with a four-character last piece, as in "2024/01" or "1/2/3". */
  lemma DateUnmatchedLayout(raw: string)
    requires !IsIsoShaped(Strip(raw))
    requires |Split(Strip(raw), '/')| != 3
      || (|Split(Strip(raw), '/')[0]| != 4 && |Split(Strip(raw), '/')[2]| != 4)
    requires |Split(Strip(raw), '-')| != 3 || |Split(Strip(raw), '-')[2]| != 4
    ensures NormalizeDateFormat(raw) == Strip(raw)
  {
  }

  /** The value the strict normaliser reads for a required field; "" when the key is missing. */
  function RequiredValue(e: RawEntry, f: RequiredField): string
    requires e.Entry?
  {
    match f
    case FlightDateField => e.flightDate.GetOr("")
    case FlightIcaoField => IcaoOf(e.flight)
    case DepartureIcaoField => IcaoOf(e.departure)
    case ArrivalIcaoField => IcaoOf(e.arrival)
  }

  /** The position of a required field in the order the strict normaliser checks them. */
  function CheckOrder(f: RequiredField): nat {
    match f
    case FlightDateField => 0
    case FlightIcaoField => 1
    case DepartureIcaoField => 2
    case ArrivalIcaoField => 3
  }

  /** The strict (file path) normaliser. It fails naming the first required field, in check order, that
      is missing or empty; otherwise the date is normalised, the lower-cased status classified with a
      missing delay read as 0, and the delay zeroed for a cancelled or diverted flight. */
  function ParseFlightData(e: RawEntry): (r: Result<FlightRecord, ParseError>)
    ensures e.Malformed? ==> r == Failure(MalformedEntry)
    ensures e.Entry? && r.Failure? ==> r.error.MissingField?
    ensures r.Failure? && r.error.MissingField? ==>
      && e.Entry?
      && RequiredValue(e, r.error.field) == ""
      && forall f: RequiredField :: CheckOrder(f) < CheckOrder(r.error.field) ==> RequiredValue(e, f) != ""
    ensures r.Success? ==>
      && e.Entry?
      && r.value.flightDate == NormalizeDateFormat(RequiredValue(e, FlightDateField))
      && r.value.flightIcao == RequiredValue(e, FlightIcaoField)
      && r.value.originIcao == RequiredValue(e, DepartureIcaoField)
      && r.value.destinationIcao == RequiredValue(e, ArrivalIcaoField)
      && r.value.flightStatus == DetermineDelayCategory(Lower(StatusOf(e)), DelayOf(e.arrival).GetOr(0))
      && (r.value.flightStatus.IsSpecial() ==> r.value.arrivalDelay == 0)
      && (!r.value.flightStatus.IsSpecial() ==> r.value.arrivalDelay == DelayOf(e.arrival).GetOr(0))
  {
    match e
    case Malformed => Failure(MalformedEntry)
    case Entry(date, status, flight, departure, arrival) =>
      if date.GetOr("") == "" then Failure(MissingField(FlightDateField))
      else
        var flightDate := NormalizeDateFormat(date.value);
        var flightIcao := IcaoOf(flight);
        if flightIcao == "" then Failure(MissingField(FlightIcaoField))
        else
          var originIcao := IcaoOf(departure);
          if originIcao == "" then Failure(MissingField(DepartureIcaoField))
          else
            var destinationIcao := IcaoOf(arrival);
            if destinationIcao == "" then Failure(MissingField(ArrivalIcaoField))
            else
              var rawDelay := DelayOf(arrival).GetOr(0);
              var category := DetermineDelayCategory(Lower(status.GetOr("")), rawDelay);
              var arrivalDelay := if category == Cancelled || category == Diverted then 0 else rawDelay;
              Success(FlightRecord(arrivalDelay, destinationIcao, flightDate, flightIcao, category, originIcao))
  }

  /** A well-formed entry is rejected exactly when one of the required fields is missing or empty. */
  lemma StrictRejectsIncomplete(e: RawEntry)
    requires e.Entry?
    ensures ParseFlightData(e).Success? <==> forall f: RequiredField :: RequiredValue(e, f) != ""
  {
    var r := ParseFlightData(e);
    if r.Failure? {
      assert RequiredValue(e, r.error.field) == "";
    }
  }

  /** The status is compared after lower-casing, so its letter case never matters. */
  lemma StatusCaseIgnored(e: RawEntry, status: string)
    requires e.Entry?
    requires Lower(status) == Lower(StatusOf(e))
    ensures ParseFlightData(e.(flightStatus := Some(status))) == ParseFlightData(e)
  {
  }

  /** A cancelled or diverted flight, whatever the letter case of its status, is stored with delay 0;
      an ordinary one keeps its raw delay, with a missing or null delay read as 0. */
  lemma StrictDelayRule(e: RawEntry)
    requires ParseFlightData(e).Success?
    ensures Lower(StatusOf(e)) == "cancelled" ==>
      ParseFlightData(e).value.flightStatus == Cancelled && ParseFlightData(e).value.arrivalDelay == 0
    ensures Lower(StatusOf(e)) == "diverted" ==>
      ParseFlightData(e).value.flightStatus == Diverted && ParseFlightData(e).value.arrivalDelay == 0
    ensures Lower(StatusOf(e)) != "cancelled" && Lower(StatusOf(e)) != "diverted" ==>
      ParseFlightData(e).value.arrivalDelay == DelayOf(e.arrival).GetOr(0)
  {
  }

  /** A status written in capitals or capitalised is recognised: "CANCELLED" or "Cancelled" gives a
      cancelled flight and "DIVERTED" or "Diverted" a diverted one, each stored with delay 0. */
  lemma SpecialStatusAnyCase(e: RawEntry)
    requires ParseFlightData(e).Success?
    ensures StatusOf(e) == "CANCELLED" || StatusOf(e) == "Cancelled" ==>
      ParseFlightData(e).value.flightStatus == Cancelled && ParseFlightData(e).value.arrivalDelay == 0
    ensures StatusOf(e) == "DIVERTED" || StatusOf(e) == "Diverted" ==>
      ParseFlightData(e).value.flightStatus == Diverted && ParseFlightData(e).value.arrivalDelay == 0
  {
    LowerCancelledCapitals();
    LowerCancelledCapitalised();
    LowerDivertedCapitals();
    LowerDivertedCapitalised();
    StrictDelayRule(e);
  }

  /** An entry without a departure object is rejected for its departure code, whatever else it holds. */
  lemma StrictExampleMissingDeparture(date: string)
    requires date != ""
    ensures ParseFlightData(Entry(Some(date), Some("landed"),
      Some(Section(Some("AAL123"), None)), None, Some(Section(Some("KLAX"), Some(30)))))
      == Failure(MissingField(DepartureIcaoField))
  {
  }

  /** An entry without a date is rejected for its date, before anything else is looked at. */
  lemma StrictExampleMissingDate()
    ensures ParseFlightData(Entry(None, Some("scheduled"), None, None, None)) == Failure(MissingField(FlightDateField))
  {
  }

  /** The loop over the "data" list: a missing, null or empty list gives no records; otherwise the records
      of the entries that normalise, in input order. */
  function ParseJsonData(data: DataField): (records: seq<FlightRecord>)
    ensures !data.List? ==> records == []
    ensures data.List? ==> |records| <= |data.entries|
  {
    match data
    case List(entries) => if |entries| == 0 then [] else Batch.KeepParsed(entries, ParseFlightData)
    case _ => []
  }

  /** Every record comes from an entry of the list that normalises to it. */
  lemma ParseJsonDataSound(entries: seq<RawEntry>)
    ensures forall k :: 0 <= k < |ParseJsonData(List(entries))| ==>
      exists i :: 0 <= i < |entries| && ParseFlightData(entries[i]) == Success(ParseJsonData(List(entries))[k])
  {
    Batch.KeepParsedSound(entries, ParseFlightData);
    if |entries| > 0 {
      assert ParseJsonData(List(entries)) == Batch.KeepParsed(entries, ParseFlightData);
    } else {
      assert ParseJsonData(List(entries)) == [];
    }
  }

  /** A one-entry list gives that entry's record when it normalises, and nothing when it does not.
      With `ParseJsonDataAppend` this fixes the records of every list. */
  lemma ParseJsonDataOne(e: RawEntry)
    ensures ParseJsonData(List([e])) == if ParseFlightData(e).Success? then [ParseFlightData(e).value] else []
  {
    Batch.KeepParsedOne(e, ParseFlightData);
  }

  /** When every entry normalises, the i-th record is the i-th entry normalised, and none is dropped. */
  lemma ParseJsonDataKeepsOrder(entries: seq<RawEntry>)
    requires forall i :: 0 <= i < |entries| ==> ParseFlightData(entries[i]).Success?
    ensures |ParseJsonData(List(entries))| == |entries|
    ensures forall i :: 0 <= i < |entries| ==> ParseJsonData(List(entries))[i] == ParseFlightData(entries[i]).value
  {
    Batch.KeepParsedAllSucceed(entries, ParseFlightData);
    if |entries| > 0 {
      assert ParseJsonData(List(entries)) == Batch.KeepParsed(entries, ParseFlightData);
    }
  }

  /** One entry that fails to normalise never aborts the file: the entries around it are kept. */
  lemma ParseJsonDataSkipsBadEntry(before: seq<RawEntry>, bad: RawEntry, after: seq<RawEntry>)
    requires ParseFlightData(bad).Failure?
    ensures ParseJsonData(List(before + [bad] + after)) == ParseJsonData(List(before)) + ParseJsonData(List(after))
  {
    Batch.KeepParsedSkipsFailure(before, bad, after, ParseFlightData);
  }

  /** Splitting the list anywhere and parsing the two halves gives the same records. */
  lemma ParseJsonDataAppend(xs: seq<RawEntry>, zs: seq<RawEntry>)
    ensures ParseJsonData(List(xs + zs)) == ParseJsonData(List(xs)) + ParseJsonData(List(zs))
  {
    if |xs| == 0 {
      assert xs + zs == zs;
    } else if |zs| == 0 {
      assert xs + zs == xs;
    } else {
      Batch.KeepParsedAppend(xs, zs, ParseFlightData);
    }
  }

  /** What the file system and the JSON decoder hand the parser. */
  datatype FileInput = MissingFile | UnreadableFile | InvalidJson | JsonText(doc: Document)

  /** The errors `parse_file` lets escape. */
  datatype FileError = FileNotFound | ReadFailure | JsonDecodeError | NotAnObject

  /** Parsing a file: a missing file, an unreadable one or invalid JSON (an empty file included) is an
      error; a top-level value that is not an object makes the `data` lookup fail; otherwise the records. */
  function ParseFile(input: FileInput): (r: Result<seq<FlightRecord>, FileError>)
    ensures r.Success? <==> input.JsonText? && input.doc.Object?
    ensures input.MissingFile? ==> r == Failure(FileNotFound)
    ensures input.UnreadableFile? ==> r == Failure(ReadFailure)
    ensures input.InvalidJson? ==> r == Failure(JsonDecodeError)
    ensures input.JsonText? && input.doc.NonObject? ==> r == Failure(NotAnObject)
    ensures input.JsonText? && input.doc.Object? ==> r == Success(ParseJsonData(input.doc.data))
    ensures input.JsonText? && input.doc.Object? && input.doc.data == List([]) ==> r == Success([])
    ensures r.Success? ==> |r.value| <= (if input.doc.data.List? then |input.doc.data.entries| else 0)
  {
    match input
    case MissingFile => Failure(FileNotFound)
    case UnreadableFile => Failure(ReadFailure)
    case InvalidJson => Failure(JsonDecodeError)
    case JsonText(NonObject) => Failure(NotAnObject)
    case JsonText(Object(data)) => Success(ParseJsonData(data))
  }
}

=== FILE: models.dfy ===
/** The value types every component shares: the delay categories, a flight record and the query. */
module Models {
  import opened Wrappers

  /** The six outcomes a flight is classified into, in the order the enumeration declares them. */
  datatype DelayCategory = Cancelled | Diverted | OnTime | MajorDelay | MinorDelay | SevereDelay {

    /** The display string the enumeration carries; it is also what the saved output writes. */
    function Value(): string {
      match this
      case Cancelled => "cancelled"
      case Diverted => "diverted"
      case OnTime => "on time"
      case MajorDelay => "major delay"
      case MinorDelay => "minor delay"
      case SevereDelay => "severe delay"
    }

    /** True of the two categories that are decided by the status string rather than by the delay. */
    predicate IsSpecial() {
      this == Cancelled || this == Diverted
    }

    /** True of the three categories the summary counts as delayed. */
    predicate IsDelayed() {
      this == MinorDelay || this == MajorDelay || this == SevereDelay
    }
  }

  /** Every category, in declaration order. */
  const AllCategories: seq<DelayCategory> := [Cancelled, Diverted, OnTime, MajorDelay, MinorDelay, SevereDelay]

  /** Upper bounds, in minutes, of the on-time, minor and major bands. */
  const OnTimeLimit: int := 15
  const MinorLimit: int := 60
  const MajorLimit: int := 180

  /** The delays a delay-based category stands for; the two special categories stand for none. */
  predicate InBand(c: DelayCategory, minutes: int) {
    match c
    case OnTime => minutes <= OnTimeLimit
    case MinorDelay => OnTimeLimit < minutes <= MinorLimit
    case MajorDelay => MinorLimit < minutes <= MajorLimit
    case SevereDelay => MajorLimit < minutes
    case _ => false
  }

  /** Rank of a delay-based category: later bands hold longer delays. */
  function Severity(c: DelayCategory): nat {
    match c
    case OnTime => 0
    case MinorDelay => 1
    case MajorDelay => 2
    case SevereDelay => 3
    case _ => 0
  }

  /** Looking a category up by its display string, as `DelayCategory(value)` does. */
  function CategoryOf(value: string): (c: Option<DelayCategory>)
    ensures c.Some? ==> c.value.Value() == value
    ensures c.None? ==> forall d: DelayCategory :: d.Value() != value
  {
    if value == "cancelled" then Some(Cancelled)
    else if value == "diverted" then Some(Diverted)
    else if value == "on time" then Some(OnTime)
    else if value == "major delay" then Some(MajorDelay)
    else if value == "minor delay" then Some(MinorDelay)
    else if value == "severe delay" then Some(SevereDelay)
    else None
  }

  /** There are exactly six categories, pairwise distinct, with pairwise distinct display strings. */
  lemma CategoriesAreSix()
    ensures |AllCategories| == 6
    ensures forall c: DelayCategory :: c in AllCategories
    ensures forall i, j :: 0 <= i < j < |AllCategories| ==> AllCategories[i].Value() != AllCategories[j].Value()
  {
    forall c: DelayCategory ensures c in AllCategories {
      match c
      case Cancelled => assert AllCategories[0] == c;
      case Diverted => assert AllCategories[1] == c;
      case OnTime => assert AllCategories[2] == c;
      case MajorDelay => assert AllCategories[3] == c;
      case MinorDelay => assert AllCategories[4] == c;
      case SevereDelay => assert AllCategories[5] == c;
    }
  }

  /** The display string determines the category, so looking it up again gives the same category. */
  lemma ValueRoundTrip(c: DelayCategory)
    ensures CategoryOf(c.Value()) == Some(c)
  {
  }

  /** Two categories with the same display string are the same category. */
  lemma ValueInjective(c: DelayCategory, d: DelayCategory)
    ensures c.Value() == d.Value() <==> c == d
  {
    ValueRoundTrip(c);
    ValueRoundTrip(d);
  }

  /** Every delay lies in exactly one delay-based band. */
  lemma BandsPartition(minutes: int, c: DelayCategory, d: DelayCategory)
    ensures exists e: DelayCategory :: InBand(e, minutes)
    ensures InBand(c, minutes) && InBand(d, minutes) ==> c == d
  {
    if minutes <= OnTimeLimit {
      assert InBand(OnTime, minutes);
    } else if minutes <= MinorLimit {
      assert InBand(MinorDelay, minutes);
    } else if minutes <= MajorLimit {
      assert InBand(MajorDelay, minutes);
    } else {
      assert InBand(SevereDelay, minutes);
    }
  }

  /** One flight's outcome; its six fields in the order the data class declares them. */
  datatype FlightRecord = FlightRecord(
    arrivalDelay: int,
    destinationIcao: string,
    flightDate: string,
    flightIcao: string,
    flightStatus: DelayCategory,
    originIcao: string)

  /** The caller's query: the one date to fetch. */
  datatype QueryParams = QueryParams(flightDate: string)

  /** Records compare by value: equal exactly when all six fields are equal. */
  lemma FlightRecordEquality(r: FlightRecord, s: FlightRecord)
    ensures r == s <==>
      && r.arrivalDelay == s.arrivalDelay
      && r.destinationIcao == s.destinationIcao
      && r.flightDate == s.flightDate
      && r.flightIcao == s.flightIcao
      && r.flightStatus == s.flightStatus
      && r.originIcao == s.originIcao
  {
  }

  /** Queries compare by value: a different date gives a different query. */
  lemma QueryParamsEquality(p: QueryParams, q: QueryParams)
    ensures p == q <==> p.flightDate == q.flightDate
  {
  }
}

=== FILE: raw_json.dfy ===
/** The decoded JSON the two parsers consume, reduced to the keys they read. */
module RawJson {
  import opened Wrappers

  /** One of the nested objects "flight", "departure" and "arrival". A key that is missing and a key
      whose value is null both read as None, which is how both parsers treat them. */
  datatype Section = Section(icao: Option<string>, delay: Option<int>)

  /** One element of the "data" list. `Malformed` stands for every entry on which a parser raises
      whatever it meant to read: an element that is not an object, a nested object that is null,
      a status that is not a string. A missing key of the entry itself is None. */
  datatype RawEntry =
    | Entry(
        flightDate: Option<string>,
        flightStatus: Option<string>,
        flight: Option<Section>,
        departure: Option<Section>,
        arrival: Option<Section>)
    | Malformed

  /** The "data" key of the top-level object: missing, null, or a list of entries. */
  datatype DataField = Absent | Null | List(entries: seq<RawEntry>)

  /** A decoded JSON document: an object (of which only "data" matters), or any other JSON value. */
  datatype Document = Object(data: DataField) | NonObject

  /** The code inside a nested object; "" when the object or its code is missing. */
  function IcaoOf(section: Option<Section>): string {
    match section
    case Some(Section(Some(icao), _)) => icao
    case _ => ""
  }

  /** The delay inside a nested object; None when the object or the delay is missing, or the delay is null. */
  function DelayOf(section: Option<Section>): Option<int> {
    match section
    case Some(sec) => sec.delay
    case None => None
  }

  /** The entry's status; "" when the key is missing. */
  function StatusOf(e: RawEntry): string
    requires e.Entry?
  {
    e.flightStatus.GetOr("")
  }

  /** The fields the file parser insists on, in the order it checks them. */
  datatype RequiredField = FlightDateField | FlightIcaoField | DepartureIcaoField | ArrivalIcaoField

  /** Why one entry did not become a record. */
  datatype ParseError = MissingField(field: RequiredField) | MalformedEntry
}

=== FILE: text.dfy ===
/** The few Python `str` operations the parsers and the command line rely on. */
module Text {

  /** The characters Python's `str.isspace()` accepts, which are exactly the ones `str.strip()` removes. */
  const Whitespace: seq<char> := [
    '\t', '\n', '\U{B}', '\U{C}', '\r', '\U{1C}', '\U{1D}', '\U{1E}', '\U{1F}', ' ', '\U{85}', '\U{A0}',
    '\U{1680}', '\U{2000}', '\U{2001}', '\U{2002}', '\U{2003}', '\U{2004}', '\U{2005}', '\U{2006}',
    '\U{2007}', '\U{2008}', '\U{2009}', '\U{200A}', '\U{2028}', '\U{2029}', '\U{202F}', '\U{205F}', '\U{3000}']

  predicate IsSpace(c: char) {
    SpaceFrom(c, 0)
  }

  /** `c` is one of the whitespace characters from position `i` of the table on. */
  predicate SpaceFrom(c: char, i: nat)
    decreases |Whitespace| - i
  {
    i < |Whitespace| && (Whitespace[i] == c || SpaceFrom(c, i + 1))
  }

  /** The table lookup agrees with the ranges Python documents: 0x09-0x0D, 0x1C-0x20 and eight single
      code points above 0x7F, plus the range 0x2000-0x200A. */
  lemma {:induction false} IsSpaceRanges(c: char)
    ensures IsSpace(c) <==>
      || ('\t' <= c <= '\r') || ('\U{1C}' <= c <= ' ') || c == '\U{85}' || c == '\U{A0}' || c == '\U{1680}'
      || ('\U{2000}' <= c <= '\U{200A}') || c == '\U{2028}' || c == '\U{2029}' || c == '\U{202F}'
      || c == '\U{205F}' || c == '\U{3000}'
  {
    var i := 29;
    while i > 0
      invariant 0 <= i <= 29
      invariant SpaceFrom(c, i) <==> exists j :: i <= j < 29 && Whitespace[j] == c
    {
      i := i - 1;
    }
    assert IsSpace(c) <==> c in Whitespace;
  }

  /** No printable ASCII character other than the space is whitespace. */
  lemma PrintableIsNotSpace(c: char)
    requires '!' <= c <= '~'
    ensures !IsSpace(c)
  {
    IsSpaceRanges(c);
  }

  /** Neither the first nor the last character is whitespace. */
  predicate NoEdgeSpace(s: string) {
    s == [] || (!IsSpace(s[0]) && !IsSpace(s[|s| - 1]))
  }

  /** Python's `str.lstrip()`: the suffix left after dropping leading whitespace. */
  function TrimLeft(s: string): (r: string)
    ensures |r| <= |s|
  {
    if |s| > 0 && IsSpace(s[0]) then TrimLeft(s[1..]) else s
  }

  /** Python's `str.rstrip()`: the prefix left after dropping trailing whitespace. */
  function TrimRight(s: string): (r: string)
    ensures |r| <= |s|
  {
    if |s| > 0 && IsSpace(s[|s| - 1]) then TrimRight(s[..|s| - 1]) else s
  }

  /** Python's `str.strip()` with no argument. */
  function Strip(s: string): string {
    TrimRight(TrimLeft(s))
  }

  /** Left trimming keeps a suffix that does not start with whitespace, and drops only whitespace. */
  lemma {:induction false} TrimLeftShape(s: string)
    ensures TrimLeft(s) == s[|s| - |TrimLeft(s)|..]
    ensures TrimLeft(s) == [] || !IsSpace(TrimLeft(s)[0])
    ensures forall i :: 0 <= i < |s| - |TrimLeft(s)| ==> IsSpace(s[i])
    decreases |s|
  {
    if |s| > 0 && IsSpace(s[0]) {
      TrimLeftShape(s[1..]);
      assert forall i :: 1 <= i < |s| ==> s[1..][i - 1] == s[i];
    }
  }

  /** Right trimming keeps a prefix that does not end with whitespace, and drops only whitespace. */
  lemma {:induction false} TrimRightShape(s: string)
    ensures TrimRight(s) == s[..|TrimRight(s)|]
    ensures TrimRight(s) == [] || !IsSpace(TrimRight(s)[|TrimRight(s)| - 1])
    ensures forall i :: |TrimRight(s)| <= i < |s| ==> IsSpace(s[i])
    decreases |s|
  {
    if |s| > 0 && IsSpace(s[|s| - 1]) {
      TrimRightShape(s[..|s| - 1]);
    }
  }

  /** Right trimming a string that does not start with whitespace keeps that start, unless it empties it. */
  lemma {:induction false} TrimRightKeepsStart(s: string)
    requires s == [] || !IsSpace(s[0])
    ensures TrimRight(s) == [] || TrimRight(s)[0] == s[0]
    decreases |s|
  {
    if |s| > 0 && IsSpace(s[|s| - 1]) {
      TrimRightKeepsStart(s[..|s| - 1]);
    }
  }

  /** The stripped string has no whitespace at either end, and a string without it is left alone. */
  lemma StripShape(s: string)
    ensures NoEdgeSpace(Strip(s))
    ensures NoEdgeSpace(s) ==> Strip(s) == s
  {
    TrimLeftShape(s);
    TrimRightShape(TrimLeft(s));
    TrimRightKeepsStart(TrimLeft(s));
  }

  /** Where the stripped text starts in the input: the number of leading whitespace characters. */
  function StripStart(s: string): nat {
    |s| - |TrimLeft(s)|
  }

  /** Stripping removes whitespace, and only whitespace, from both ends: the result is the slice of the
      input after the leading whitespace, with only whitespace after it. */
  lemma StripIsSlice(s: string)
    ensures StripStart(s) + |Strip(s)| <= |s|
    ensures Strip(s) == s[StripStart(s)..StripStart(s) + |Strip(s)|]
    ensures forall i :: 0 <= i < StripStart(s) ==> IsSpace(s[i])
    ensures forall i :: StripStart(s) + |Strip(s)| <= i < |s| ==> IsSpace(s[i])
  {
    var l := TrimLeft(s);
    var r := TrimRight(l);
    var lo := |s| - |l|;
    TrimLeftShape(s);
    TrimRightShape(l);
    assert Strip(s) == r;
    assert s[lo..lo + |r|] == l[..|r|];
    forall i | lo + |r| <= i < |s|
      ensures IsSpace(s[i])
    {
      assert s[i] == l[i - lo];
    }
  }

  /** Python's `str.lower()` on one ASCII character; every other character is left as it is. */
  function LowerChar(c: char): (d: char)
    ensures !('A' <= d <= 'Z')
    ensures 'A' <= c <= 'Z' ==> d as int == c as int + ('a' as int - 'A' as int)
    ensures !('A' <= c <= 'Z') ==> d == c
  {
    if 'A' <= c <= 'Z' then (c as int + 32) as char else c
  }

  /** Python's `str.lower()`, restricted to ASCII letters. */
  function Lower(s: string): (r: string)
    ensures |r| == |s|
    decreases |s|
  {
    if |s| == 0 then [] else [LowerChar(s[0])] + Lower(s[1..])
  }

  /** Lower-casing maps each character on its own, leaves no upper-case ASCII letter, and is idempotent. */
  lemma {:induction false} LowerPointwise(s: string)
    ensures forall i :: 0 <= i < |s| ==> Lower(s)[i] == LowerChar(s[i])
    ensures forall i :: 0 <= i < |s| ==> !('A' <= Lower(s)[i] <= 'Z')
    ensures Lower(Lower(s)) == Lower(s)
    decreases |s|
  {
    if |s| > 0 {
      LowerPointwise(s[1..]);
      assert forall i :: 1 <= i < |s| ==> Lower(s)[i] == Lower(s[1..])[i - 1];
      assert Lower(s)[1..] == Lower(s[1..]);
    }
  }

  /** Lower-casing gives `t` exactly when `t` is, character by character, the lower-cased input. */
  lemma LowerIs(s: string, t: string)
    ensures Lower(s) == t <==> |s| == |t| && forall i :: 0 <= i < |s| ==> LowerChar(s[i]) == t[i]
  {
    LowerPointwise(s);
  }

  /** "CANCELLED" lower-cases to "cancelled". */
  lemma LowerCancelledCapitals()
    ensures Lower("CANCELLED") == "cancelled"
  {
    LowerIs("CANCELLED", "cancelled");
  }

  /** "Cancelled" lower-cases to "cancelled". */
  lemma LowerCancelledCapitalised()
    ensures Lower("Cancelled") == "cancelled"
  {
    LowerIs("Cancelled", "cancelled");
  }

  /** "DIVERTED" lower-cases to "diverted". */
  lemma LowerDivertedCapitals()
    ensures Lower("DIVERTED") == "diverted"
  {
    LowerIs("DIVERTED", "diverted");
  }

  /** "Diverted" lower-cases to "diverted". */
  lemma LowerDivertedCapitalised()
    ensures Lower("Diverted") == "diverted"
  {
    LowerIs("Diverted", "diverted");
  }

  /** Python's `s.split(sep)` for a one-character separator: the pieces between separators, empty ones kept. */
  function Split(s: string, sep: char): (parts: seq<string>)
    ensures |parts| >= 1
    ensures sep !in s ==> parts == [s]
    decreases |s|
  {
    if |s| == 0 then [""]
    else
      var rest := Split(s[1..], sep);
      assert [s[0]] + s[1..] == s;
      assert sep in s[1..] ==> sep in s;
      if s[0] == sep then [""] + rest
      else [[s[0]] + rest[0]] + rest[1..]
  }

  /** Splitting only cuts: every character of every piece is a character of the string. */
  lemma {:induction false} SplitKeepsCharacters(s: string, sep: char)
    ensures forall i, k :: 0 <= i < |Split(s, sep)| && 0 <= k < |Split(s, sep)[i]| ==> Split(s, sep)[i][k] in s
    decreases |s|
  {
    if |s| > 0 {
      SplitKeepsCharacters(s[1..], sep);
      var rest := Split(s[1..], sep);
      var parts := Split(s, sep);
      assert forall i, k :: 0 <= i < |rest| && 0 <= k < |rest[i]| ==> rest[i][k] in s[1..];
      forall i, k | 0 <= i < |parts| && 0 <= k < |parts[i]|
        ensures parts[i][k] in s
      {
        if s[0] == sep {
          assert parts[i] == ([""] + rest)[i];
          assert i > 0 && parts[i] == rest[i - 1];
          assert parts[i][k] in s[1..];
        } else if i == 0 {
          assert parts[0] == [s[0]] + rest[0];
          if k > 0 {
            assert parts[i][k] == rest[0][k - 1];
            assert rest[0][k - 1] in s[1..];
          }
        } else {
          assert parts[i] == rest[i];
          assert parts[i][k] in s[1..];
        }
      }
    }
  }

  /** Python's `sep.join(parts)` for a one-character separator and at least one part. */
  function Join(parts: seq<string>, sep: char): string
    requires |parts| >= 1
  {
    if |parts| == 1 then parts[0] else parts[0] + [sep] + Join(parts[1..], sep)
  }

  /** Joining the pieces of a split gives back the string that was split. */
  lemma {:induction false} JoinSplit(s: string, sep: char)
    ensures Join(Split(s, sep), sep) == s
    decreases |s|
  {
    if |s| > 0 {
      var rest := Split(s[1..], sep);
      JoinSplit(s[1..], sep);
      if s[0] == sep {
        assert ([""] + rest)[1..] == rest;
      } else if |rest| > 1 {
        var parts := [[s[0]] + rest[0]] + rest[1..];
        assert parts[1..] == rest[1..];
        assert Join(rest, sep) == rest[0] + [sep] + Join(rest[1..], sep);
      }
    }
  }

  /** Splitting at the first separator: a separator-free head becomes the first piece. */
  lemma {:induction false} SplitAfterHead(head: string, sep: char, tail: string)
    requires sep !in head
    ensures Split(head + [sep] + tail, sep) == [head] + Split(tail, sep)
    decreases |head|
  {
    var s := head + [sep] + tail;
    if |head| == 0 {
      assert s[1..] == tail;
    } else {
      assert s[1..] == head[1..] + [sep] + tail;
      SplitAfterHead(head[1..], sep, tail);
      assert [head[0]] + head[1..] == head;
    }
  }

  /** Splitting what was joined gives back the parts, provided no part contains the separator. */
  lemma {:induction false} SplitJoin(parts: seq<string>, sep: char)
    requires |parts| >= 1
    requires forall i :: 0 <= i < |parts| ==> sep !in parts[i]
    ensures Split(Join(parts, sep), sep) == parts
    decreases |parts|
  {
    if |parts| > 1 {
      SplitJoin(parts[1..], sep);
      SplitAfterHead(parts[0], sep, Join(parts[1..], sep));
      assert [parts[0]] + parts[1..] == parts;
    }
  }

  /** The three-piece case the date normaliser looks for. */
  lemma SplitThree(a: string, b: string, c: string, sep: char)
    requires sep !in a && sep !in b && sep !in c
    ensures Split(a + [sep] + b + [sep] + c, sep) == [a, b, c]
  {
    var parts := [a, b, c];
    assert Join([c], sep) == c;
    assert Join([b, c], sep) == b + [sep] + c by {
      assert [b, c][1..] == [c];
    }
    assert Join(parts, sep) == a + [sep] + (b + [sep] + c) by {
      assert parts[1..] == [b, c];
    }
    assert a + [sep] + (b + [sep] + c) == a + [sep] + b + [sep] + c;
    SplitJoin(parts, sep);
  }

  /** A run of `n` zero digits. */
  function Zeros(n: nat): (z: string)
    ensures |z| == n
    ensures forall i :: 0 <= i < n ==> z[i] == '0'
  {
    seq(n, _ => '0')
  }

  predicate StartsWithSign(s: string) {
    |s| > 0 && (s[0] == '+' || s[0] == '-')
  }

  /** Python's `str.zfill(2)`: zero digits are inserted after a leading sign, or in front, up to width 2. */
  function ZFill2(s: string): (r: string)
    ensures |r| == if |s| >= 2 then |s| else 2
  {
    if |s| >= 2 then s
    else if |s| == 0 then "00"
    else if StartsWithSign(s) then [s[0], '0']
    else ['0', s[0]]
  }

  /** Padding inserts zeros after the sign, if any, and keeps every character of the input in order. */
  lemma ZFill2Shape(s: string)
    ensures var k := if StartsWithSign(s) then 1 else 0;
      ZFill2(s) == s[..k] + Zeros(|ZFill2(s)| - |s|) + s[k..]
    ensures forall i :: 0 <= i < |ZFill2(s)| ==> ZFill2(s)[i] == '0' || ZFill2(s)[i] in s
  {
  }

  predicate IsDigit(c: char) {
    '0' <= c <= '9'
  }

  predicate AllDigits(s: string) {
    forall i :: 0 <= i < |s| ==> IsDigit(s[i])
  }

  function DigitChar(d: nat): (c: char)
    requires d < 10
    ensures IsDigit(c)
  {
    ('0' as int + d) as char
  }

  /** The numeric value of a string of decimal digits (the empty string reads as 0). */
  function DecimalValue(s: string): nat
    requires AllDigits(s)
  {
    if |s| == 0 then 0 else 10 * DecimalValue(s[..|s| - 1]) + (s[|s| - 1] as int - '0' as int)
  }

  /** Python's `str(n)` for a non-negative integer: its decimal digits, without leading zeros. */
  function DecimalString(n: nat): (s: string)
    ensures |s| >= 1 && AllDigits(s)
    ensures s[0] == '0' ==> n == 0
    decreases n
  {
    if n < 10 then [DigitChar(n)] else DecimalString(n / 10) + [DigitChar(n % 10)]
  }

  /** Reading the digits back gives the number that was printed. */
  lemma {:induction false} DecimalRoundTrip(n: nat)
    ensures DecimalValue(DecimalString(n)) == n
    decreases n
  {
    if n >= 10 {
      var s := DecimalString(n);
      DecimalRoundTrip(n / 10);
      assert s[..|s| - 1] == DecimalString(n / 10);
    }
  }
}

=== FILE: wrappers.dfy ===
/** Option and Result: the model's stand-ins for Python's `None` and for raised exceptions. */
module Wrappers {

  datatype Option<+T> = None | Some(value: T) {

    /** Returns the wrapped value, or `default` for None (Python's `x if x is not None else default`). */
    function GetOr(default: T): T {
      match this
      case Some(v) => v
      case None => default
    }
  }

  /** A computation that either returns a value or raises an error. */
  datatype Result<+R, +E> = Success(value: R) | Failure(error: E)
}
